=== FILE: README.md ===
# FoodieDelight client logic in Dafny

This project models the logic inside the FoodieDelight browser client, a React
front end for a restaurant and menu directory. Restaurants and their menu items
live on a REST server. The client lists them, shows one restaurant with its
menu, and lets the user add, edit and delete both kinds of record through two
forms.

The model covers the decisions those components make, written as pure
functions over immutable records:

- **Field rules.** Each form has a declarative schema: required fields,
  digits-only fields, at least one category, and an image of at most
  5,000,000 bytes whose type is jpg, jpeg or png.
- **Opening hours.** The restaurant form has a hand-written cross-field check
  on the opening and closing times.
- **Form mechanics.** The category checkboxes (categories are an ordered
  list), the edit-mode prefill, and the
  mapping from flat form values to the nested request body.
- **Dispatch and callbacks.** Submitting either creates or updates. When the
  request settles, a callback decides whether the response counts as success.
- **Views.** The render order loading → error → empty/not-found → data, the
  lookup of a restaurant by route id, and the "No data found" empty state.
- **Shared list.** The context keeps the last restaurant list it received.
- **API.** Each service operation maps to one HTTP verb, one path and one body.

Side effects are modelled as data. Toasts, cache invalidations, modal closing,
navigation and the loading flag are `Effects.Effect` values, and each callback
returns the list of effects the source performs, in source order.

Two operations the model does not define are function-typed parameters with
no interpretation:
- The 12-hour to 24-hour conversion `convertTo24HourFormat` (`to24`) comes
  from a helper file that is not part of this model.
- yup's e-mail format test (`isEmail`) comes from the yup library.

Modules, one per source component, plus shared helpers (`Wrappers`, `Text`, `FieldRules`, `Entities`, `Routes`, `Effects`):

| module | models |
|---|---|
| `Text` | the `/^\d+$/` test, decimal values of digit strings, `split(",")` / `join(",")`, JavaScript string order |
| `FieldRules` | the required, digits-only and image rules both schemas use |
| `Entities`, `Routes` | request bodies, server records, client page paths |
| `Api` | `restaurantService` and `menuService` as request descriptors |
| `Effects` | effects, the server responses the callbacks read, the success gates, query descriptions |
| `RestaurantForm`, `MenuForm` | the two forms |
| `RestaurantContext`, `RestaurantList`, `RestaurantCard`, `MenuItem` | the shared list and the three views |

Notes on what the code does, which the model follows:

- **Form reset.** The restaurant form calls `resetForm` after sending an
  update, not after a create. The menu form calls it after sending a create,
  not after an update.
- **Cache key after a menu create.** A successful menu create invalidates the
  key `"menu"`. The menu query is keyed `["menus", restaurantId]`, so that
  invalidation does not refresh it (`MenuItem.MenuInvalidationKeys`).
- **Number inputs.** Price, preparation time and calories are
  `type="number"` inputs. Formik stores what `parseFloat` makes of the typed
  text, and yup casts that number back to a string before the `/^\d+$/` test.
  The model works on the typed text; the two agree for digit strings (see
  "## Left out").
- **Success gate.** The create and update
  callbacks count a response as success only when the returned record has a
  non-empty `_id` and the body's status is 200. The delete callbacks check
  only the status.

## Model

| member | source | states |
|---|---|---|
| `FieldRules.Digits` | frontend/src/router/RestaurantForm/RestaurantForm.jsx:19-22 | a digits field passes exactly when it is non-empty and all decimal digits; an empty value reports the required message |
| `FieldRules.Image` | frontend/src/router/RestaurantForm/RestaurantForm.jsx:30-40 | an image passes exactly when present, at most 5,000,000 bytes and of type image/jpg, image/jpeg or image/png; a missing image reports the required message, an oversized one "The file is too large" (the menu form's image rule is the same) |
| `FieldRules.ImageBoundaries` | frontend/src/router/MenuForm/MenuForm.jsx:35-45 | 5,000,000 bytes passes and 5,000,001 fails; image/gif fails and image/jpg passes |
| `RestaurantForm.SchemaErrors` | frontend/src/router/RestaurantForm/RestaurantForm.jsx:15-41 | each of name, description, city, address, state, zip, openFrom and openTo is an error exactly when empty, with its own message; email fails when empty or not an e-mail; contact fails unless digits-only; categories fail exactly when empty; the image fails unless present and acceptable |
| `RestaurantForm.ValidateHours` | frontend/src/router/RestaurantForm/RestaurantForm.jsx:165-192 | an empty openFrom or openTo gets its own "required" message; with both set, exactly one outcome applies: equal converted times give "cannot be the same" (the later assignment wins), a later opening than closing gives "should be greater", an earlier one adds no openTo error |
| `Text.LexTrichotomy` | frontend/src/router/RestaurantForm/RestaurantForm.jsx:181-188 | for JavaScript string order, exactly one of `a < b`, `a === b`, `b < a` holds, which makes the three outcomes of the hours check exclusive and exhaustive |
| `RestaurantForm.Without` | frontend/src/router/RestaurantForm/RestaurantForm.jsx:330-333 | the filter removes every occurrence of the tag and keeps every other tag with its multiplicity |
| `RestaurantForm.WithoutConcat` | frontend/src/router/RestaurantForm/RestaurantForm.jsx:332 | the filter works element by element: filtering a concatenation filters each part, in order |
| `RestaurantForm.WithoutAppended` | frontend/src/router/RestaurantForm/RestaurantForm.jsx:335-338 | removing a tag after appending it gives the same list as removing it before |
| `RestaurantForm.WithoutAbsent` | frontend/src/router/RestaurantForm/RestaurantForm.jsx:332 | filtering out a tag that is absent leaves the list unchanged |
| `RestaurantForm.Toggle` | frontend/src/router/RestaurantForm/RestaurantForm.jsx:327-340 | a present tag is removed everywhere, an absent one is appended at the end; the tag ends up present exactly when it was absent; the other tags keep their order and multiplicity |
| `RestaurantForm.ToggleTwiceUnchecked` | frontend/src/router/RestaurantForm/RestaurantForm.jsx:327-340 | checking and then unchecking a category restores the list exactly |
| `RestaurantForm.ToggleTwiceChecked` | frontend/src/router/RestaurantForm/RestaurantForm.jsx:327-340 | unchecking and then checking a category leaves it once, at the end, after the other tags in their order |
| `RestaurantForm.OnCategoryChange` | frontend/src/router/RestaurantForm/RestaurantForm.jsx:321-386 | clicking a checkbox flips that checkbox's checked state, leaves every other checkbox as it was, and changes no other value |
| `RestaurantForm.Prefill` | frontend/src/router/RestaurantForm/RestaurantForm.jsx:151-164 | the image always starts unset; adding starts from blanks and an empty category list; editing starts from the record's categories |
| `RestaurantForm.PrefillNeedsImage` | frontend/src/router/RestaurantForm/RestaurantForm.jsx:163 | a freshly opened form, in either mode, reports "Restaurant image is required" |
| `RestaurantForm.Payload` | frontend/src/router/RestaurantForm/RestaurantForm.jsx:92-111 | each form value lands in its place in the body: name, description, the four address fields, e-mail and phone, the image from `restroImageBase64`, the categories, and openFrom/openTo as the opening/closing time; nothing is converted |
| `RestaurantForm.PrefillOfSaved` | frontend/src/router/RestaurantForm/RestaurantForm.jsx:92-111 | the body is a pure regrouping: opening the edit form on a restaurant saved from values `v` shows exactly `v`, except the image |
| `RestaurantForm.PayloadOfPrefill` | frontend/src/router/RestaurantForm/RestaurantForm.jsx:151-164 | re-submitting an unchanged edit form with a new image sends the restaurant's own fields with that image |
| `RestaurantForm.Submit` | frontend/src/router/RestaurantForm/RestaurantForm.jsx:112-131 | a request is sent exactly when both the schema and the hours check report nothing; editing sends PUT /restaurant/{_id} and resets the form, adding sends POST /restaurant and does not; the body sent has its opening time before its closing time, a digits-only phone and at least one category, and the chosen image is acceptable |
| `RestaurantForm.CreateOnSuccess` | frontend/src/router/RestaurantForm/RestaurantForm.jsx:52-60 | loading always ends; the success toast and the "restaurants" invalidation happen exactly when the body has a non-empty `_id` and status 200; a create never closes a modal or navigates |
| `RestaurantForm.EditOnSuccess` | frontend/src/router/RestaurantForm/RestaurantForm.jsx:73-83 | loading always ends; exactly past the same gate the success toast shows, the list is invalidated and the modal closes, and the app navigates to /restaurant/{_id} and nowhere else; no error toast shows; otherwise nothing else happens |
| `Effects.SaveFailed` | frontend/src/router/RestaurantForm/RestaurantForm.jsx:61-65 | a failed create or update (in both forms) ends loading and then shows exactly one error toast, with the fixed text when adding and the server's message when editing; nothing is invalidated, closed or navigated |
| `RestaurantForm.OnSettled` | frontend/src/router/RestaurantForm/RestaurantForm.jsx:49-90 | however a request settles, the form leaves its loading state; the list is invalidated exactly on a gated success |
| `MenuForm.SchemaErrors` | frontend/src/router/MenuForm/MenuForm.jsx:16-46 | restaurantId, name, description, ingredients, category and availability are each an error exactly when empty, with their own messages; price, preparation time and calories, as typed, fail unless digits-only; the image fails unless present and acceptable |
| `MenuForm.Payload` | frontend/src/router/MenuForm/MenuForm.jsx:86-99 | restaurantId, name, description and category are copied to their own fields; the price is the value of its digit string; availability is true exactly for "yes"; preparation time and calories are passed on as held; the ingredients are comma-free pieces that join back to the typed text; the image comes from `menuImageBase64` |
| `Text.ValueOfDecimal` | frontend/src/router/MenuForm/MenuForm.jsx:90 | reading back the decimal text of a number gives the number |
| `Text.DecimalOfValue` | frontend/src/router/MenuForm/MenuForm.jsx:140 | a digit string without leading zeros is the decimal text of its value |
| `Text.LeadingZeroIgnored` | frontend/src/router/MenuForm/MenuForm.jsx:90 | a leading zero does not change the parsed price |
| `Text.Decimal` | frontend/src/router/MenuForm/MenuForm.jsx:140 | the text a prefilled price shows is a digit string without leading zeros |
| `Text.Split` | frontend/src/router/MenuForm/MenuForm.jsx:97 | splitting on "," yields at least one piece, and no piece contains a comma |
| `Text.JoinSplit` | frontend/src/router/MenuForm/MenuForm.jsx:97 | joining the pieces of any string with "," restores the string |
| `Text.SplitJoin` | frontend/src/router/MenuForm/MenuForm.jsx:143 | splitting the join of a non-empty list of comma-free pieces gives the list back |
| `MenuForm.Prefill` | frontend/src/router/MenuForm/MenuForm.jsx:136-147 | availability is "yes" exactly when editing an available item and "no" otherwise, including when adding; a positive price shows as its decimal text, a price of 0 as empty; the image starts unset |
| `MenuForm.PrefillAvailabilityPasses` | frontend/src/router/MenuForm/MenuForm.jsx:145 | a freshly opened form never fails the availability rule, and always fails the image rule |
| `MenuForm.PayloadOfPrefill` | frontend/src/router/MenuForm/MenuForm.jsx:136-147 | re-submitting an unchanged edit form with a new image sends the item's own fields, provided its price is positive and its ingredient names hold no commas |
| `MenuForm.PrefillOfSaved` | frontend/src/router/MenuForm/MenuForm.jsx:86-99 | opening the edit form on an item saved from values `v` shows exactly `v`, except the image, when the price has no leading zeros and is not 0 |
| `MenuForm.Submit` | frontend/src/router/MenuForm/MenuForm.jsx:100-116 | a request is sent exactly when the schema reports nothing; editing sends PUT /menu/{_id} and keeps the form, adding sends POST /menu and resets it |
| `MenuForm.CreateOnSuccessAsWritten` | frontend/src/router/MenuForm/MenuForm.jsx:51-59 | as written, loading ends, the "added" toast shows and "menu" is invalidated, each exactly when the body has a non-empty `_id` and status 200; otherwise nothing happens; no error toast, modal change or navigation ever |
| `MenuForm.CreateSpinnerStuck` | frontend/src/router/MenuForm/MenuForm.jsx:51-59 | as written, a response with status 201, or whose saved record has no `_id`, leaves the loading flag set |
| `MenuForm.CreateOnSuccess` | frontend/src/router/MenuForm/MenuForm.jsx:51-59 | corrected: loading always ends; toast and the "menu" invalidation happen exactly past the gate |
| `MenuForm.EditOnSuccess` | frontend/src/router/MenuForm/MenuForm.jsx:68-77 | loading always ends; the "updated" toast, the "menus" invalidation and the modal close happen exactly past the gate; no error toast and no navigation |
| `MenuForm.OnSettled` | frontend/src/router/MenuForm/MenuForm.jsx:50-83 | corrected: however a request settles, the form leaves its loading state; some key is invalidated exactly on a gated success |
| `MenuForm.OnSettledAsWritten` | frontend/src/router/MenuForm/MenuForm.jsx:50-83 | as written: loading stays on exactly when a create resolves and fails the gate; every other outcome ends it; some key is invalidated exactly on a gated success |
| `Api.Describe` | frontend/src/services/Api.js:7-19 | GET only for the two listings, POST for the adds, PUT for the updates, DELETE for the deletes; only the restaurant listing uses "/restaurants", every other restaurant call "/restaurant"; id-bearing calls end in "/{id}"; adds and updates carry the data as body, the rest none |
| `Api.DescribeInjective` | frontend/src/services/Api.js:7-19 | different operations (or arguments) never issue the same request |
| `Api.Request.Url` | frontend/src/services/Api.js:3-5 | axios's joining of `baseURL` and path: an absolute path is kept, an empty one gives the base, a path with one leading slash is appended as written, and one without a slash gets one |
| `Api.DescribePathShape` | frontend/src/services/Api.js:8-18 | every service path starts with exactly one slash, so axios neither treats it as absolute nor adds a slash |
| `Api.DescribeUrl` | frontend/src/services/Api.js:3-19 | every service call goes to the base URL followed by its path exactly as written |
| `RestaurantContext.RestaurantsQuery` | frontend/src/context/RestaurantContext.js:17-19 | the shared list is queried under key "restaurants" with GET /restaurants and no refetch on window focus |
| `RestaurantContext.OnData` | frontend/src/context/RestaurantContext.js:21-25 | the list is replaced only when the result, its body and its list are all present; otherwise the previous list is kept |
| `RestaurantContext.ReplayKeepsLastFetched` | frontend/src/context/RestaurantContext.js:12-25 | after any series of query results, the provider holds the latest list that arrived, or the list it started from if none did |
| `RestaurantList.ShowsLastFetchedList` | frontend/src/context/RestaurantContext.js:21-29 | once the query settles without error, the home page shows, in order, the latest list any query result carried, and the empty message exactly when that list is empty or none arrived |
| `RestaurantList.Render` | frontend/src/components/RestaurantList/RestaurantList.jsx:14-28 | loading first, then the error, then the empty message exactly for an empty list, else one card per restaurant in order, each leading to /restaurant/{_id} |
| `RestaurantList.DefaultShowsEmpty` | frontend/src/context/RestaurantContext.js:5-9 | the default context (no restaurants, not loading, no error) renders the empty message |
| `RestaurantCard.IndexOfId` | frontend/src/components/RestaurantCard/RestaurantCard.jsx:57 | the index found is the first whose `_id` equals the route id, and none is found exactly when no restaurant has it |
| `RestaurantCard.Find` | frontend/src/components/RestaurantCard/RestaurantCard.jsx:57 | the restaurant found has the route id and is the first in the list with it; none is found exactly when no restaurant has that id |
| `RestaurantCard.Render` | frontend/src/components/RestaurantCard/RestaurantCard.jsx:59-61 | loading first, then the error, then not-found exactly when no restaurant has the route id, else the details of the first restaurant with that id |
| `RestaurantCard.HoursLineShowsSubmittedTimes` | frontend/src/components/RestaurantCard/RestaurantCard.jsx:93-99 | a saved restaurant's page shows "openFrom - openTo" and "address city, state, zip" from the values submitted |
| `RestaurantCard.ConfirmDelete` | frontend/src/components/RestaurantCard/RestaurantCard.jsx:49-51 | a delete is issued only from the details view, and it is DELETE /restaurant/{route id} |
| `RestaurantCard.OnDeleteSuccess` | frontend/src/components/RestaurantCard/RestaurantCard.jsx:26-32 | with status 200 the modal closes, a toast shows, the app navigates to "/" and nowhere else, and "restaurants" is invalidated; no error toast shows; any other status changes nothing |
| `RestaurantCard.OnDeleteSettled` | frontend/src/components/RestaurantCard/RestaurantCard.jsx:26-37 | however a delete settles, the app leaves for "/" and the list is invalidated exactly when the response has status 200; the error toast shows exactly when the request failed, and then nothing else happens |
| `RestaurantCard.MutationsRefreshTheList` | frontend/src/components/RestaurantCard/RestaurantCard.jsx:31 | every gated restaurant create, update and delete invalidates the key the shared list is queried under |
| `MenuItem.MenusQuery` | frontend/src/components/MenuItem/MenuItem.jsx:14-18 | the menu query's key is ["menus", restaurantId] and it fetches GET /menu/{that same id}, with no refetch on window focus |
| `MenuItem.NoDataAsWritten` | frontend/src/components/MenuItem/MenuItem.jsx:39-41 | as written, the empty state holds exactly when the body's message is "No data found" |
| `MenuItem.EmptyListNotDetectedAsWritten` | frontend/src/components/MenuItem/MenuItem.jsx:39 | as written, a body with an empty item list and no message is not treated as empty |
| `MenuItem.NoData` | frontend/src/components/MenuItem/MenuItem.jsx:39-41 | corrected: the empty state holds exactly for the "No data found" message or an empty item list |
| `MenuItem.Render` | frontend/src/components/MenuItem/MenuItem.jsx:38-64 | corrected: the error wins over the empty state; otherwise the empty message, else one card per listed item in order, and never zero cards for a listed empty list |
| `MenuItem.RenderAsWritten` | frontend/src/components/MenuItem/MenuItem.jsx:38-64 | as written: the error first, then the empty message exactly when the body says "No data found", else one card per listed item |
| `MenuItem.EmptyListRendersNothingAsWritten` | frontend/src/components/MenuItem/MenuItem.jsx:39-64 | as written, a listing with no items renders zero cards and no message, where the corrected view shows the message |
| `MenuItem.OpenDelete` | frontend/src/components/MenuItem/MenuItem.jsx:43-46 | after clicking an item's delete icon the delete modal is shown, and confirming it deletes that item; the edit modal is left as it was |
| `MenuItem.OpenEdit` | frontend/src/components/MenuItem/MenuItem.jsx:48-51 | after clicking an item's edit icon the edit modal is shown with the form started from that item, and any request it sends is the update of that item; the delete modal is left as it was |
| `MenuItem.ConfirmDelete` | frontend/src/components/MenuItem/MenuItem.jsx:53-59 | confirming issues a bodiless DELETE, on /menu/{_id} of the recorded item |
| `MenuItem.DeleteTargetsChosenItem` | frontend/src/components/MenuItem/MenuItem.jsx:43-55 | the delete issued after opening the modal for an item is the delete of that item |
| `MenuItem.EditTargetsChosenItem` | frontend/src/components/MenuItem/MenuItem.jsx:126-131 | an edit submitted from the modal opened for an item is PUT /menu/{that item's _id} |
| `MenuItem.OnDeleteSuccess` | frontend/src/components/MenuItem/MenuItem.jsx:20-26 | with status 200 a toast shows, "menus" is invalidated and the modal closes, with no navigation and no error toast; any other status changes nothing |
| `MenuItem.OnDeleteSettled` | frontend/src/components/MenuItem/MenuItem.jsx:19-31 | however a delete settles, "menus" is invalidated exactly when the response has status 200; the error toast shows exactly when the request failed, and then nothing else happens |
| `MenuItem.MenuInvalidationKeys` | frontend/src/router/MenuForm/MenuForm.jsx:57 | menu deletes and edits invalidate the menu query's key "menus"; a menu create invalidates "menu", which is not that key |

## Findings

| source | as written | input that shows it | evidently intended | confidence | as-written member | corrected member |
|---|---|---|---|---|---|---|
| frontend/src/router/MenuForm/MenuForm.jsx:51-59 | the create callback calls `setIsLoading(false)` only inside its success gate, while `onSubmit` has already set loading | a create response whose body has status 201, or whose saved record has no `_id`: the form keeps showing its spinner until it is remounted | loading ends on every response, as in the other three form callbacks | medium, not executed | `MenuForm.CreateOnSuccessAsWritten`, `MenuForm.CreateSpinnerStuck`, `MenuForm.OnSettledAsWritten` | `MenuForm.CreateOnSuccess` (used by `MenuForm.OnSettled`) |
| frontend/src/components/MenuItem/MenuItem.jsx:39 | `menus?.length === 0` reads `length` of the response object, which has none, so the comparison is never true | a listing body `{ status: 200, data: [] }`: neither the "No menus available" message nor any card is shown | an empty item list shows the empty-state message | medium, not executed | `MenuItem.NoDataAsWritten`, `MenuItem.EmptyListNotDetectedAsWritten`, `MenuItem.RenderAsWritten`, `MenuItem.EmptyListRendersNothingAsWritten` | `MenuItem.NoData` (used by `MenuItem.Render`) |

## Left out

- The body of `convertTo24HourFormat`. It is an uninterpreted parameter `to24`, and its results are compared as JavaScript compares strings. The helper file that defines it is not part of this model.
- `getBase64`, which reads the chosen file asynchronously. The model takes its result as the optional `restroImageBase64` / `menuImageBase64` value, which is absent until the read finishes.
- yup's e-mail regular expression. It is the abstract parameter `isEmail`.
- Formik's internals. This covers touched-field tracking and how the schema errors and the `validate` errors are merged. The two error sources are separate functions, and a submit is sent only when both are empty.
- Which message a field shows when it fails several yup tests. This is library behaviour. The model reports the required message for an empty value.
- react-query internals: de-duplication, staleness and refetching. The model does not decide which cached queries a key matches. It records only the key each callback passes to `invalidateQueries`.
- A save response that carries no record at all. Reading `data.data.data._id` then throws a TypeError inside `onSuccess`, and react-query runs `onError` instead. A caller models it as a `Rejected` settlement; that the update form's `onError` then throws again, after clearing loading and before its toast, is not modelled.
- A network error with no response. Reading `error.response.data.message` then throws. The model takes the server's message as a plain parameter.
- The `try`/`catch` blocks around `mutate`, which never catch anything because `mutate` reports failures through the callbacks.
- Toast durations, `console.log`, and the actual rendering (JSX, Bootstrap, the spinner and modal components, Badge, Navigation, Home, App routing).
- The time and restaurant `<select>` options. The rules are stated for any string.
- Overlapping mutations and callbacks that fire after the view is gone. This is asynchronous concurrency, which the source does not guard against.
- The `!restaurantsData` guard in the list view. The context always provides a list, so the model's list is never absent.
- `isError: ""` in the default context. It is modelled as `false`, which is how the views read it.
- `MenuForm.SchemaErrors`: tests the typed text of price, preparation time and calories. The source tests Formik's stored value, which for these `type="number"` inputs is `parseFloat` of the typed text cast back to a string. The two agree on digit strings. They differ on text such as "12.0", "1e1" or "-0", which the source accepts (as "12", "10" and "0") and the model rejects; floating-point parsing and printing are not modelled.
- `MenuForm.Payload`: requires a digits-only price. `parseFloat` on other text (NaN, partial parses) is not modelled. The function is reached only through `MenuForm.Submit`, after the schema has checked the price. Preparation time and calories are passed on as strings. Once typed into their number inputs, the source holds them as numbers and sends numbers; only values prefilled from the server and left untouched are sent as received.
- `MenuForm.Prefill`: models an integer price. Non-integer prices and float precision above 2^53 are not modelled, so a price is an unbounded natural number.
- `Text.LexLess`: compares Unicode scalar values, whereas JavaScript compares UTF-16 code units. The two orders differ only between characters above U+FFFF and characters in U+E000–U+FFFF.

=== FILE: api.dfy ===
/**
 * The REST client: each service operation is one HTTP request against a
 * fixed base URL. A request is described by its verb, its path below the
 * base URL and its body; sending it is not modelled.
 */
module Api {
  import opened Entities

  const BaseUrl: string := "https://foodiedelight-backend.onrender.com/v1"

  const RestaurantsPath: string := "/restaurants"
  const RestaurantPath: string := "/restaurant"
  const MenuPath: string := "/menu"

  predicate StartsWith(s: string, prefix: string) {
    |prefix| <= |s| && s[..|prefix|] == prefix
  }

  datatype Verb = Get | Post | Put | Delete

  datatype Body = NoBody | RestaurantBody(restaurant: RestaurantPayload) | MenuBody(menu: MenuPayload)

  /** A letter, as the case-insensitive `[a-z]` of a URL scheme. */
  predicate IsLetter(c: char) {
    ('a' <= c <= 'z') || ('A' <= c <= 'Z')
  }

  /** A character allowed after a scheme's first letter: `[a-z\d+\-.]`, case-insensitive. */
  predicate IsSchemeChar(c: char) {
    IsLetter(c) || ('0' <= c <= '9') || c == '+' || c == '-' || c == '.'
  }

  /** The rest of a scheme, then `://`. */
  predicate SchemeTail(s: string)
    decreases |s|
  {
    StartsWith(s, "://") || (|s| > 0 && IsSchemeChar(s[0]) && SchemeTail(s[1..]))
  }

  /** axios's absolute-URL test `/^([a-z][a-z\d+\-.]*:)?\/\//i`: a scheme followed by `//`, or a leading `//`. */
  predicate IsAbsoluteUrl(s: string) {
    StartsWith(s, "//") || (|s| > 0 && IsLetter(s[0]) && SchemeTail(s[1..]))
  }

  /** `s.replace(/^\/+/, '')`: every leading slash removed. */
  function DropLeadingSlashes(s: string): (r: string)
    ensures |r| == 0 || r[0] != '/'
    ensures |r| <= |s| && s[|s| - |r|..] == r
    ensures forall i :: 0 <= i < |s| - |r| ==> s[i] == '/'
    decreases |s|
  {
    if |s| > 0 && s[0] == '/' then DropLeadingSlashes(s[1..]) else s
  }

  /** `s.replace(/\/?\/$/, '')`: one or two trailing slashes removed. */
  function DropTrailingSlashes(s: string): string {
    if |s| >= 2 && s[|s| - 2..] == "//" then s[..|s| - 2]
    else if |s| >= 1 && s[|s| - 1] == '/' then s[..|s| - 1]
    else s
  }

  /** axios's `combineURLs(baseURL, relativeURL)`: exactly one slash between the two, or the base alone for an empty path. */
  function CombineUrls(base: string, relative: string): string {
    if relative == "" then base
    else DropTrailingSlashes(base) + "/" + DropLeadingSlashes(relative)
  }

  /** The base URL ends in neither slash, so the join keeps it whole. */
  lemma BaseUrlKept()
    ensures DropTrailingSlashes(BaseUrl) == BaseUrl
  {
    assert BaseUrl[|BaseUrl| - 1] == '1';
  }

  /** A path with one leading slash loses exactly that slash. */
  lemma DropOneSlash(path: string)
    requires StartsWith(path, "/") && !StartsWith(path, "//")
    ensures DropLeadingSlashes(path) == path[1..]
  {
    assert path[0] == '/';
    assert |path| == 1 || path[1] != '/';
  }

  /** A path with one leading slash, joined onto the base, is appended as written. */
  lemma JoinSlashPath(path: string)
    requires StartsWith(path, "/") && !StartsWith(path, "//")
    ensures !IsAbsoluteUrl(path)
    ensures CombineUrls(BaseUrl, path) == BaseUrl + path
  {
    DropOneSlash(path);
    BaseUrlKept();
    var base := BaseUrl;
    assert CombineUrls(base, path) == base + "/" + path[1..];
    assert "/" + path[1..] == path;
    assert base + "/" + path[1..] == base + ("/" + path[1..]);
  }

  /** A relative path without a leading slash gets one. */
  lemma JoinBarePath(path: string)
    requires path != "" && path[0] != '/'
    ensures CombineUrls(BaseUrl, path) == BaseUrl + "/" + path
  {
    BaseUrlKept();
  }

  datatype Request = Request(verb: Verb, path: string, body: Body) {

    /**
     * The absolute URL the request goes to: axios's `buildFullPath` with the
     * instance's `baseURL`, which keeps an absolute path as it is and joins a
     * relative one onto the base.
     */
    function Url(): (u: string)
      ensures IsAbsoluteUrl(path) ==> u == path
      ensures path == "" ==> u == BaseUrl
      // a path with a single leading slash is appended to the base as written
      ensures StartsWith(path, "/") && !StartsWith(path, "//") ==> u == BaseUrl + path
      // a path with no leading slash gets one
      ensures !IsAbsoluteUrl(path) && path != "" && path[0] != '/' ==> u == BaseUrl + "/" + path
    {
      if IsAbsoluteUrl(path) then path
      else if path != "" && path[0] == '/' && (|path| == 1 || path[1] != '/') then
        JoinSlashPath(path);
        CombineUrls(BaseUrl, path)
      else if path != "" && path[0] != '/' then
        JoinBarePath(path);
        CombineUrls(BaseUrl, path)
      else
        CombineUrls(BaseUrl, path)
    }
  }

  /** The operations of `restaurantService` and `menuService`. */
  datatype Operation =
    | GetAll
    | AddRestaurant(restaurant: RestaurantPayload)
    | DeleteRestaurant(id: string)
    | UpdateRestaurant(id: string, restaurant: RestaurantPayload)
    | GetMenuByRestaurant(id: string)
    | AddMenuItem(menu: MenuPayload)
    | DeleteMenuItem(id: string)
    | UpdateMenuItem(id: string, menu: MenuPayload)
  {
    /** The operation addresses one entity (or, for the menu listing, one restaurant) by id. */
    predicate HasId() {
      DeleteRestaurant? || UpdateRestaurant? || GetMenuByRestaurant? || DeleteMenuItem? || UpdateMenuItem?
    }

    predicate OnRestaurants() {
      GetAll? || AddRestaurant? || DeleteRestaurant? || UpdateRestaurant?
    }
  }

  /** The request an operation issues. */
  function Describe(op: Operation): (r: Request)
    ensures r.verb == Get <==> op.GetAll? || op.GetMenuByRestaurant?
    ensures r.verb == Post <==> op.AddRestaurant? || op.AddMenuItem?
    ensures r.verb == Put <==> op.UpdateRestaurant? || op.UpdateMenuItem?
    ensures r.verb == Delete <==> op.DeleteRestaurant? || op.DeleteMenuItem?
    // only the restaurant listing uses the plural collection name
    ensures op.GetAll? ==> r.path == RestaurantsPath
    ensures op.OnRestaurants() ==> StartsWith(r.path, RestaurantPath)
    ensures op.OnRestaurants() ==> (StartsWith(r.path, RestaurantsPath) <==> op.GetAll?)
    ensures !op.OnRestaurants() ==> StartsWith(r.path, MenuPath)
    // the id is the last path segment
    ensures op.HasId() ==> r.path == (if op.OnRestaurants() then RestaurantPath else MenuPath) + "/" + op.id
    ensures !op.HasId() && !op.GetAll? ==> r.path == (if op.OnRestaurants() then RestaurantPath else MenuPath)
    // bodies: the data itself (updates send a shallow copy, which is equal to it)
    ensures r.body.NoBody? <==> r.verb == Get || r.verb == Delete
    ensures op.AddRestaurant? || op.UpdateRestaurant? ==> r.body == RestaurantBody(op.restaurant)
    ensures op.AddMenuItem? || op.UpdateMenuItem? ==> r.body == MenuBody(op.menu)
  {
    match op
    case GetAll => Request(Get, RestaurantsPath, NoBody)
    case AddRestaurant(data) => Request(Post, RestaurantPath, RestaurantBody(data))
    case DeleteRestaurant(id) =>
      assert (RestaurantPath + "/" + id)[|RestaurantPath|] != RestaurantsPath[|RestaurantPath|];
      Request(Delete, RestaurantPath + "/" + id, NoBody)
    case UpdateRestaurant(id, data) =>
      assert (RestaurantPath + "/" + id)[|RestaurantPath|] != RestaurantsPath[|RestaurantPath|];
      Request(Put, RestaurantPath + "/" + id, RestaurantBody(data))
    case GetMenuByRestaurant(id) => Request(Get, MenuPath + "/" + id, NoBody)
    case AddMenuItem(data) => Request(Post, MenuPath, MenuBody(data))
    case DeleteMenuItem(id) => Request(Delete, MenuPath + "/" + id, NoBody)
    case UpdateMenuItem(id, data) => Request(Put, MenuPath + "/" + id, MenuBody(data))
  }

  lemma PrefixCancel(p: string, x: string, y: string)
    requires p + x == p + y
    ensures x == y
  {
    assert x == (p + x)[|p|..];
  }

  /** No two operations issue the same request: the request determines the operation and its arguments. */
  lemma DescribeInjective(a: Operation, b: Operation)
    requires Describe(a) == Describe(b)
    ensures a == b
  {
    var ra, rb := Describe(a), Describe(b);
    assert ra.path[1] == rb.path[1];
    if a.HasId() && b.HasId() {
      var prefix := (if a.OnRestaurants() then RestaurantPath else MenuPath) + "/";
      PrefixCancel(prefix, a.id, b.id);
    }
  }

  /** Every path the services use starts with exactly one slash. */
  lemma {:induction false} DescribePathShape(op: Operation)
    ensures StartsWith(Describe(op).path, "/") && !StartsWith(Describe(op).path, "//")
  {
    var path := Describe(op).path;
    assert path[0] == '/' && path[1] != '/';
  }

  /** Every service call goes to the base URL followed by its path exactly as written. */
  lemma {:induction false} DescribeUrl(op: Operation)
    ensures Describe(op).Url() == BaseUrl + Describe(op).path
  {
    DescribePathShape(op);
  }
}

=== FILE: effects.dfy ===
/**
 * What a mutation callback does, as data: the toasts, cache invalidations,
 * modal closing, navigation and loading-flag changes the source performs as
 * side effects. Also the server responses the callbacks inspect, the
 * success gates they apply, and the query descriptions the views register.
 */
module Effects {
  import opened Wrappers
  import Api

  datatype Effect =
    | ClearLoading                 // setIsLoading(false)
    | SuccessToast(text: string)   // toast.success(text)
    | ErrorToast(text: string)     // toast.error(text)
    | Invalidate(key: string)      // queryClient.invalidateQueries(key)
    | CloseModal                   // closeEditModal() / setShowModal(false) / setDeleteModalShow(false)
    | NavigateTo(path: string)     // navigate(path)

  /** Cache keys named by the queries and invalidations. */
  const RestaurantsKey: string := "restaurants"
  const MenusKey: string := "menus"
  const MenuKey: string := "menu"

  /**
   * The body of a create or update response: its embedded `status` and the
   * `_id` of the saved record (`data.data.data._id`), absent when the record
   * has no `_id`. The record itself is taken to be present: when it is
   * missing, reading `_id` throws inside `onSuccess` and react-query runs
   * `onError` instead, which is a `Rejected` settlement here.
   */
  datatype SaveResponse = SaveResponse(status: int, savedId: Option<string>)

  /** `data.data.data._id && data.data.status === 200`: an id that is a non-empty string, and status 200. */
  predicate SaveSucceeded(r: SaveResponse) {
    r.savedId.Some? && r.savedId.value != "" && r.status == 200
  }

  /** The body of a delete response: only its embedded `status` is read. */
  datatype DeleteResponse = DeleteResponse(status: int)

  predicate DeleteSucceeded(r: DeleteResponse) {
    r.status == 200
  }

  /** How a create or update request settled: `onSuccess` with a response body, or `onError` with the server's message. */
  datatype Settlement = Resolved(response: SaveResponse) | Rejected(serverMessage: string)

  /** How a delete request settled: `onSuccess` with a response body, or `onError`. */
  datatype DeleteSettlement = Deleted(response: DeleteResponse) | DeleteRejected

  /** The loading flag after a callback's effects, starting from `loading`. */
  predicate LoadingAfter(loading: bool, effects: seq<Effect>) {
    loading && ClearLoading !in effects
  }

  /**
   * The `onError` callback of a create or update: loading ends and one error
   * toast shows, with the form's fixed text when adding and the server's
   * message when editing; the cache, the modal and the route are untouched.
   */
  function SaveFailed(createFailedText: string, editing: bool, serverMessage: string): (effects: seq<Effect>)
    ensures !LoadingAfter(true, effects)
    ensures forall e :: e in effects && e.ErrorToast? ==> e.text == (if editing then serverMessage else createFailedText)
    ensures ErrorToast(if editing then serverMessage else createFailedText) in effects
    ensures forall e :: e in effects ==> e.ClearLoading? || e.ErrorToast?
    // exactly one error toast after the loading flag is cleared
    ensures |effects| == 2 && effects[0] == ClearLoading && effects[1].ErrorToast?
  {
    [ClearLoading, ErrorToast(if editing then serverMessage else createFailedText)]
  }

  /** The `onError` callback of a delete: one error toast with the view's fixed text, and nothing else. */
  function DeleteFailed(text: string): (effects: seq<Effect>)
    ensures |effects| == 1
    ensures forall e :: e in effects ==> e == ErrorToast(text)
  {
    [ErrorToast(text)]
  }

  /** A registered query: its cache key, the request that fetches it, and whether window focus refetches it. */
  datatype QuerySpec = QuerySpec(key: seq<string>, fetch: Api.Request, refetchOnWindowFocus: bool)

  /** The outcome of pressing submit: blocked by validation errors, or a request sent (and whether `resetForm` runs). */
  datatype Submission = Blocked | Sent(request: Api.Request, resetsForm: bool)
}

=== FILE: entities.dfy ===
/**
 * The records exchanged with the server: the request bodies the two forms
 * assemble, and the entities the server returns (the same shape plus the
 * server-assigned `_id`).
 */
module Entities {
  import opened Wrappers

  datatype Location = Location(address: string, city: string, state: string, zipCode: string)

  datatype Contact = Contact(email: string, phone: string)

  datatype OperatingHours = OperatingHours(openTime: string, closeTime: string)

  /** The body the restaurant form sends when creating or updating. */
  datatype RestaurantPayload = RestaurantPayload(
    name: string,
    description: string,
    location: Location,
    contact: Contact,
    image: Option<string>,
    categories: seq<string>,
    operatingHours: OperatingHours)

  /** A restaurant as the server lists it. */
  datatype Restaurant = Restaurant(
    id: string,
    name: string,
    description: string,
    location: Location,
    contact: Contact,
    image: Option<string>,
    categories: seq<string>,
    operatingHours: OperatingHours)

  /** The restaurant the server holds after saving `p` under `id`. */
  function StoredRestaurant(id: string, p: RestaurantPayload): (r: Restaurant)
    ensures r.id == id && RestaurantFields(r) == p
  {
    Restaurant(id, p.name, p.description, p.location, p.contact, p.image, p.categories, p.operatingHours)
  }

  /** Everything of a restaurant except its `_id`. */
  function RestaurantFields(r: Restaurant): RestaurantPayload {
    RestaurantPayload(r.name, r.description, r.location, r.contact, r.image, r.categories, r.operatingHours)
  }

  datatype NutritionalInfo = NutritionalInfo(calories: string, ingredients: seq<string>)

  /** The body the menu form sends when creating or updating. */
  datatype MenuPayload = MenuPayload(
    restaurantId: string,
    name: string,
    description: string,
    price: nat,
    category: string,
    image: Option<string>,
    availability: bool,
    preparationTime: string,
    nutritionalInfo: NutritionalInfo)

  /** A menu item as the server lists it. */
  datatype MenuEntry = MenuEntry(
    id: string,
    restaurantId: string,
    name: string,
    description: string,
    price: nat,
    category: string,
    image: Option<string>,
    availability: bool,
    preparationTime: string,
    nutritionalInfo: NutritionalInfo)

  /** The menu item the server holds after saving `p` under `id`. */
  function StoredMenuEntry(id: string, p: MenuPayload): (m: MenuEntry)
    ensures m.id == id && MenuFields(m) == p
  {
    MenuEntry(id, p.restaurantId, p.name, p.description, p.price, p.category, p.image,
              p.availability, p.preparationTime, p.nutritionalInfo)
  }

  /** Everything of a menu item except its `_id`. */
  function MenuFields(m: MenuEntry): MenuPayload {
    MenuPayload(m.restaurantId, m.name, m.description, m.price, m.category, m.image,
                m.availability, m.preparationTime, m.nutritionalInfo)
  }
}

/** Client-side page paths. */
module Routes {

  const Home: string := "/"

  /** The detail page of one restaurant, `/restaurant/{id}`. */
  function RestaurantPage(id: string): string {
    "/restaurant/" + id
  }
}

=== FILE: menu_form.dfy ===
/**
 * The add/edit menu-item form: the field schema, the request body (price
 * parsed, availability mapped to a boolean, ingredients split on commas),
 * the edit-mode prefill (ingredients joined back with commas), the
 * create-versus-update dispatch, and the callbacks that run when the
 * request settles.
 */
module MenuForm {
  import opened Wrappers
  import opened Text
  import opened FieldRules
  import opened Entities
  import opened Effects
  import Api

  datatype Field =
    | RestaurantId | Name | Description | Price | PreparationTime | Calories
    | Ingredients | Category | Availability | MenuImage

  const AllFields: set<Field> :=
    {RestaurantId, Name, Description, Price, PreparationTime, Calories,
     Ingredients, Category, Availability, MenuImage}

  /**
   * The form's values. `price` is the text of the price field (a number
   * prefilled in edit mode is read as its decimal text), `ingredients` is
   * comma-separated text, `availability` is the chosen radio value.
   */
  datatype Values = Values(
    restaurantId: string,
    name: string,
    description: string,
    price: string,
    preparationTime: string,
    calories: string,
    ingredients: string,
    category: string,
    availability: string,
    menuImage: Option<File>,
    menuImageBase64: Option<string>)

  const Yes: string := "yes"
  const No: string := "no"

  // ---------------------------------------------------------------------------
  // Field schema

  const RestaurantRequired: string := "Please Select Restaurant"
  const NameRequired: string := "Dish Name is required"
  const DescriptionRequired: string := "Description is required"
  const PriceNotNumber: string := "price must be a number"
  const PriceRequired: string := "price is required"
  const TimeNotNumber: string := "preparation time must be a number"
  const TimeRequired: string := "preparation time is required"
  const CaloriesNotNumber: string := "calories time must be a number"
  const CaloriesRequired: string := "calories time is required"
  const IngredientsRequired: string := "ingredients is required"
  const CategoryRequired: string := "category is required"
  const AvailabilityRequired: string := "availability is required"
  const ImageRequired: string := "Menu image is required"

  function FieldError(v: Values, f: Field): Option<string> {
    match f
    case RestaurantId => Required(v.restaurantId, RestaurantRequired)
    case Name => Required(v.name, NameRequired)
    case Description => Required(v.description, DescriptionRequired)
    case Price => Digits(v.price, PriceRequired, PriceNotNumber)
    case PreparationTime => Digits(v.preparationTime, TimeRequired, TimeNotNumber)
    case Calories => Digits(v.calories, CaloriesRequired, CaloriesNotNumber)
    case Ingredients => Required(v.ingredients, IngredientsRequired)
    case Category => Required(v.category, CategoryRequired)
    case Availability => Required(v.availability, AvailabilityRequired)
    case MenuImage => Image(v.menuImage, ImageRequired)
  }

  /** The errors the field schema reports: one message per failing field. */
  function SchemaErrors(v: Values): (errors: map<Field, string>)
    ensures RestaurantId in errors <==> v.restaurantId == ""
    ensures Name in errors <==> v.name == ""
    ensures Description in errors <==> v.description == ""
    ensures Ingredients in errors <==> v.ingredients == ""
    ensures Category in errors <==> v.category == ""
    ensures Availability in errors <==> v.availability == ""
    ensures Price in errors <==> !DigitsOnly(v.price)
    ensures PreparationTime in errors <==> !DigitsOnly(v.preparationTime)
    ensures Calories in errors <==> !DigitsOnly(v.calories)
    ensures MenuImage in errors <==> !(v.menuImage.Some? && ImageAcceptable(v.menuImage.value))
    // each required field reports its own message
    ensures v.restaurantId == "" ==> errors[RestaurantId] == RestaurantRequired
    ensures v.name == "" ==> errors[Name] == NameRequired
    ensures v.description == "" ==> errors[Description] == DescriptionRequired
    ensures v.price == "" ==> errors[Price] == PriceRequired
    ensures v.preparationTime == "" ==> errors[PreparationTime] == TimeRequired
    ensures v.calories == "" ==> errors[Calories] == CaloriesRequired
    ensures v.ingredients == "" ==> errors[Ingredients] == IngredientsRequired
    ensures v.category == "" ==> errors[Category] == CategoryRequired
    ensures v.availability == "" ==> errors[Availability] == AvailabilityRequired
    ensures v.menuImage.None? ==> errors[MenuImage] == ImageRequired
  {
    map f | f in AllFields && FieldError(v, f).Some? :: FieldError(v, f).value
  }

  // ---------------------------------------------------------------------------
  // Request body and prefill

  /**
   * `reqBody`. The price is the value of its digit string (the schema has
   * checked it is one); availability is `true` exactly for "yes";
   * preparation time and calories stay text; the ingredients are the
   * comma-separated pieces, nested with the calories.
   */
  function Payload(v: Values): (p: MenuPayload)
    requires DigitsOnly(v.price)
    ensures p.restaurantId == v.restaurantId && p.name == v.name
    ensures p.description == v.description && p.category == v.category
    ensures p.price == ValueOf(v.price)
    ensures p.availability <==> v.availability == Yes
    ensures p.preparationTime == v.preparationTime && p.nutritionalInfo.calories == v.calories
    ensures Join(p.nutritionalInfo.ingredients) == v.ingredients
    ensures |p.nutritionalInfo.ingredients| >= 1 && NoCommas(p.nutritionalInfo.ingredients)
    ensures p.image == v.menuImageBase64
  {
    JoinSplit(v.ingredients);
    MenuPayload(
      v.restaurantId,
      v.name,
      v.description,
      ValueOf(v.price),
      v.category,
      v.menuImageBase64,
      v.availability == Yes,
      v.preparationTime,
      NutritionalInfo(v.calories, Split(v.ingredients)))
  }

  const Blank: Values := Values("", "", "", "", "", "", "", "", No, None, None)

  /**
   * The initial values: the fields of the item being edited, or blanks when
   * adding. A price of 0 is falsy and shows as empty; ingredients are
   * joined with commas; availability is "yes" exactly when the item is
   * available, so it is never empty. The image always starts unset.
   */
  function Prefill(data: Option<MenuEntry>): (v: Values)
    ensures v.availability == Yes <==> data.Some? && data.value.availability
    ensures v.availability == Yes || v.availability == No
    ensures v.menuImage.None? && v.menuImageBase64.None?
    ensures data.None? ==> v == Blank
    ensures data.Some? && data.value.price > 0 ==> Canonical(v.price) && ValueOf(v.price) == data.value.price
    ensures data.Some? && data.value.price == 0 ==> v.price == ""
  {
    match data
    case None => Blank
    case Some(m) =>
      ValueOfDecimal(m.price);
      Values(
        m.restaurantId,
        m.name,
        m.description,
        if m.price == 0 then "" else Decimal(m.price),
        m.preparationTime,
        m.nutritionalInfo.calories,
        Join(m.nutritionalInfo.ingredients),
        m.category,
        if m.availability then Yes else No,
        None,
        None)
  }

  /** The availability field of a freshly opened form never fails its required rule, in either mode. */
  lemma PrefillAvailabilityPasses(data: Option<MenuEntry>)
    ensures Availability !in SchemaErrors(Prefill(data))
    ensures MenuImage in SchemaErrors(Prefill(data))
  {
  }

  /**
   * Re-submitting an edit form unchanged, with a new image, sends the item's
   * own fields back, provided its price is positive and its ingredient names
   * hold no commas.
   */
  lemma {:induction false} PayloadOfPrefill(m: MenuEntry, image: File, base64: string)
    requires m.price > 0
    requires |m.nutritionalInfo.ingredients| > 0 && NoCommas(m.nutritionalInfo.ingredients)
    ensures var v := Prefill(Some(m)).(menuImage := Some(image), menuImageBase64 := Some(base64));
            DigitsOnly(v.price) && Payload(v) == MenuFields(m).(image := Some(base64))
  {
    SplitJoin(m.nutritionalInfo.ingredients);
  }

  /**
   * Editing a saved item shows the values it was saved from, except the
   * image, when the price was typed without leading zeros and is not 0.
   */
  lemma {:induction false} PrefillOfSaved(id: string, v: Values)
    requires Canonical(v.price) && v.price != "0"
    requires v.availability == Yes || v.availability == No
    ensures Prefill(Some(StoredMenuEntry(id, Payload(v)))) == v.(menuImage := None, menuImageBase64 := None)
  {
    PositiveValue(v.price);
    DecimalOfValue(v.price);
    JoinSplit(v.ingredients);
  }

  // ---------------------------------------------------------------------------
  // Dispatch

  /**
   * Pressing submit. Formik calls the handler only when the schema reports
   * no error. Editing sends an update of the item being edited and keeps
   * the form; adding sends a create and resets the form.
   */
  function Submit(data: Option<MenuEntry>, v: Values): (s: Submission)
    ensures s.Sent? <==> SchemaErrors(v) == map[]
    ensures s.Sent? ==> DigitsOnly(v.price) && s.request.body == Api.MenuBody(Payload(v))
    ensures s.Sent? ==> (s.request.verb == Api.Put <==> data.Some?) && (s.request.verb == Api.Post <==> data.None?)
    ensures s.Sent? && data.Some? ==> s.request.path == "/menu/" + data.value.id
    ensures s.Sent? && data.None? ==> s.request.path == "/menu"
    ensures s.Sent? ==> (s.resetsForm <==> data.None?)
  {
    if SchemaErrors(v) != map[] then
      Blocked
    else
      assert Price !in SchemaErrors(v);
      match data
      case Some(m) => Sent(Api.Describe(Api.UpdateMenuItem(m.id, Payload(v))), false)
      case None => Sent(Api.Describe(Api.AddMenuItem(Payload(v))), true)
  }

  // ---------------------------------------------------------------------------
  // Settling the request

  const AddedText: string := "Successfully added new menu item!"
  const UpdatedText: string := "Successfully updated restaurant!"
  const CreateFailedText: string := "Error while creating new menu item"

  /**
   * The create mutation's `onSuccess` as written: the loading flag is
   * cleared only inside the success gate, next to the toast and the
   * invalidation of key "menu".
   */
  function CreateOnSuccessAsWritten(response: SaveResponse): (effects: seq<Effect>)
    ensures ClearLoading in effects <==> SaveSucceeded(response)
    ensures SuccessToast(AddedText) in effects <==> SaveSucceeded(response)
    ensures Invalidate(MenuKey) in effects <==> SaveSucceeded(response)
    ensures !SaveSucceeded(response) ==> effects == []
    ensures forall e :: e in effects ==> !e.ErrorToast? && !e.CloseModal? && !e.NavigateTo?
  {
    if SaveSucceeded(response) then [SuccessToast(AddedText), ClearLoading, Invalidate(MenuKey)] else []
  }

  /** A response that fails the gate (status 201, or a saved record without an `_id`) leaves the form showing its loading spinner. */
  lemma CreateSpinnerStuck()
    ensures LoadingAfter(true, CreateOnSuccessAsWritten(SaveResponse(201, Some("m1"))))
    ensures LoadingAfter(true, CreateOnSuccessAsWritten(SaveResponse(200, None)))
  {
  }

  /** The create mutation's `onSuccess`, with loading ended whatever the response, as every other callback does. */
  function CreateOnSuccess(response: SaveResponse): (effects: seq<Effect>)
    ensures ClearLoading in effects
    ensures SuccessToast(AddedText) in effects <==> SaveSucceeded(response)
    ensures Invalidate(MenuKey) in effects <==> SaveSucceeded(response)
    ensures forall e :: e in effects && e.Invalidate? ==> e.key == MenuKey
    ensures !SaveSucceeded(response) ==> effects == [ClearLoading]
  {
    [ClearLoading] + if SaveSucceeded(response) then [SuccessToast(AddedText), Invalidate(MenuKey)] else []
  }

  /** The update mutation's `onSuccess`: loading always ends; past the gate the menus are refreshed and the modal closes. */
  function EditOnSuccess(response: SaveResponse): (effects: seq<Effect>)
    ensures ClearLoading in effects
    ensures SuccessToast(UpdatedText) in effects <==> SaveSucceeded(response)
    ensures Invalidate(MenusKey) in effects <==> SaveSucceeded(response)
    ensures CloseModal in effects <==> SaveSucceeded(response)
    ensures forall e :: e in effects ==> !e.ErrorToast?
    ensures !SaveSucceeded(response) ==> effects == [ClearLoading]
    ensures forall e :: e in effects ==> !e.NavigateTo?
  {
    [ClearLoading] +
      if SaveSucceeded(response) then [SuccessToast(UpdatedText), Invalidate(MenusKey), CloseModal] else []
  }

  /** Whichever way a request settles, the form leaves its loading state. */
  function OnSettled(editing: bool, settlement: Settlement): (effects: seq<Effect>)
    ensures !LoadingAfter(true, effects)
    ensures (exists k :: Invalidate(k) in effects) <==> settlement.Resolved? && SaveSucceeded(settlement.response)
  {
    match settlement
    case Resolved(response) => if editing then EditOnSuccess(response) else CreateOnSuccess(response)
    case Rejected(message) => SaveFailed(CreateFailedText, editing, message)
  }

  /**
   * How a request settles with the create callback as written: a create
   * response that fails the gate leaves loading on; every other outcome
   * ends it.
   */
  function OnSettledAsWritten(editing: bool, settlement: Settlement): (effects: seq<Effect>)
    ensures LoadingAfter(true, effects) <==> !editing && settlement.Resolved? && !SaveSucceeded(settlement.response)
    ensures (exists k :: Invalidate(k) in effects) <==> settlement.Resolved? && SaveSucceeded(settlement.response)
  {
    match settlement
    case Resolved(response) => if editing then EditOnSuccess(response) else CreateOnSuccessAsWritten(response)
    case Rejected(message) => SaveFailed(CreateFailedText, editing, message)
  }
}

=== FILE: menu_item.dfy ===
/**
 * The menu section of a restaurant page: it queries the restaurant's menu
 * items, decides between error, empty and card views, records the item a
 * modal was opened for, and deletes that item on request.
 */
module MenuItem {
  import opened Wrappers
  import opened Entities
  import opened Effects
  import Api
  import MenuForm

  const NoDataMessage: string := "No data found"

  /** The body of the menu listing: a list of items, or a message instead. */
  datatype MenuBody = MenuBody(message: Option<string>, data: Option<seq<MenuEntry>>)

  /** The query's data: the listing response, whose only part read here is its body. */
  datatype MenuResponse = MenuResponse(body: Option<MenuBody>)

  /** The query registered for one restaurant's menu: keyed by the restaurant id it fetches with. */
  function MenusQuery(restaurantId: string): (q: QuerySpec)
    ensures |q.key| == 2 && q.key[0] == MenusKey && q.key[1] == restaurantId
    ensures q.fetch == Api.Describe(Api.GetMenuByRestaurant(q.key[1]))
    ensures q.fetch.verb == Api.Get && q.fetch.path == "/menu/" + restaurantId
    ensures !q.refetchOnWindowFocus
  {
    QuerySpec([MenusKey, restaurantId], Api.Describe(Api.GetMenuByRestaurant(restaurantId)), false)
  }

  /** `menus?.data?.data`: the listed items when present. */
  function Listed(menus: Option<MenuResponse>): Option<seq<MenuEntry>> {
    if menus.Some? && menus.value.body.Some? then menus.value.body.value.data else None
  }

  /**
   * The empty-state test as written:
   * `menus?.data?.message === "No data found" || menus?.length === 0`.
   * `menus` is the response object, which has no `length`, so the second
   * comparison is `undefined === 0` and never holds.
   */
  predicate NoDataAsWritten(menus: Option<MenuResponse>)
    ensures NoDataAsWritten(menus) <==> menus.Some? && menus.value.body.Some?
                                        && menus.value.body.value.message == Some(NoDataMessage)
  {
    var messageSaysEmpty := menus.Some? && menus.value.body.Some? && menus.value.body.value.message == Some(NoDataMessage);
    var lengthIsZero := false;
    messageSaysEmpty || lengthIsZero
  }

  /** An empty list in the body is not recognised as empty: the section renders no cards and no message. */
  lemma EmptyListNotDetectedAsWritten()
    ensures var menus := Some(MenuResponse(Some(MenuBody(None, Some([])))));
            !NoDataAsWritten(menus) && Listed(menus) == Some([])
  {
  }

  /** The empty-state test with the length taken of the listed items, as intended. */
  predicate NoData(menus: Option<MenuResponse>)
    ensures NoDataAsWritten(menus) ==> NoData(menus)
    ensures Listed(menus) == Some([]) ==> NoData(menus)
    ensures NoData(menus) ==> menus.Some? && menus.value.body.Some?
    // and nothing else counts as empty
    ensures NoData(menus) ==> NoDataAsWritten(menus) || Listed(menus) == Some([])
  {
    NoDataAsWritten(menus) || (Listed(menus).Some? && |Listed(menus).value| == 0)
  }

  datatype MenuView = LoadError | NoMenus | MenuCards(items: seq<MenuEntry>)

  /**
   * What the section renders: the error first, then the empty message, then
   * one card per listed item in order (none while the data is absent).
   */
  function Render(isError: bool, menus: Option<MenuResponse>): (view: MenuView)
    ensures view.LoadError? <==> isError
    ensures view.NoMenus? <==> !isError && NoData(menus)
    ensures view.MenuCards? ==> view.items == Listed(menus).GetOr([])
    ensures view.MenuCards? && Listed(menus).Some? ==> |view.items| > 0
  {
    if isError then LoadError
    else if NoData(menus) then NoMenus
    else MenuCards(Listed(menus).GetOr([]))
  }

  /** What the section renders as written: the same order, with the as-written empty test. */
  function RenderAsWritten(isError: bool, menus: Option<MenuResponse>): (view: MenuView)
    ensures view.LoadError? <==> isError
    ensures view.NoMenus? <==> !isError && NoDataAsWritten(menus)
    ensures view.MenuCards? ==> view.items == Listed(menus).GetOr([])
  {
    if isError then LoadError
    else if NoDataAsWritten(menus) then NoMenus
    else MenuCards(Listed(menus).GetOr([]))
  }

  /** As written, a listing with no items renders zero cards and no message; the corrected view shows the message. */
  lemma EmptyListRendersNothingAsWritten()
    ensures var menus := Some(MenuResponse(Some(MenuBody(None, Some([])))));
            RenderAsWritten(false, menus) == MenuCards([]) && Render(false, menus) == NoMenus
  {
  }

  // ---------------------------------------------------------------------------
  // Modals and deletion

  /** The item a modal was last opened for, and which modals are shown. */
  datatype Selection = Selection(item: Option<MenuEntry>, deleteShown: bool, editShown: bool)

  /** Clicking an item's delete icon: record the item, then show the delete modal. */
  function OpenDelete(s: Selection, menu: MenuEntry): (r: Selection)
    ensures r.item == Some(menu) && r.deleteShown && r.editShown == s.editShown
    // confirming the modal just opened deletes this item
    ensures ConfirmDelete(r) == Api.Describe(Api.DeleteMenuItem(menu.id))
  {
    s.(item := Some(menu), deleteShown := true)
  }

  /** Clicking an item's edit icon: record the item, then show the edit modal. */
  function OpenEdit(s: Selection, menu: MenuEntry): (r: Selection)
    ensures r.item == Some(menu) && r.editShown && r.deleteShown == s.deleteShown
    // the form in the modal just opened edits this item: it starts from its values and updates it
    ensures MenuForm.Prefill(r.item) == MenuForm.Prefill(Some(menu))
    ensures forall v :: MenuForm.Submit(r.item, v).Sent? ==>
              MenuForm.Submit(r.item, v).request == Api.Describe(Api.UpdateMenuItem(menu.id, MenuForm.Payload(v)))
  {
    s.(item := Some(menu), editShown := true)
  }

  /** The text a template literal makes of `menuItem?._id`: the id, or "undefined" when no item was recorded. */
  function IdText(item: Option<MenuEntry>): string {
    match item
    case Some(m) => m.id
    case None => "undefined"
  }

  /** Confirming the delete modal: a delete of the recorded item. */
  function ConfirmDelete(s: Selection): (request: Api.Request)
    ensures request.verb == Api.Delete && request.body.NoBody?
    ensures s.item.Some? ==> request.path == "/menu/" + s.item.value.id
  {
    Api.Describe(Api.DeleteMenuItem(IdText(s.item)))
  }

  /** The delete issued after opening the delete modal for an item targets that item. */
  lemma DeleteTargetsChosenItem(s: Selection, menu: MenuEntry)
    ensures ConfirmDelete(OpenDelete(s, menu)) == Api.Describe(Api.DeleteMenuItem(menu.id))
  {
  }

  /** An edit submitted from the modal opened for an item updates that item. */
  lemma EditTargetsChosenItem(s: Selection, menu: MenuEntry, v: MenuForm.Values)
    ensures var sub := MenuForm.Submit(OpenEdit(s, menu).item, v);
            sub.Sent? ==> sub.request.verb == Api.Put && sub.request.path == "/menu/" + menu.id
  {
  }

  const DeletedText: string := "Menu Item Deleted!"
  const DeleteFailedText: string := "Error while delete menu item"

  /** The delete mutation's `onSuccess`: with status 200 the menus are refreshed and the modal closes; otherwise nothing happens. */
  function OnDeleteSuccess(response: DeleteResponse): (effects: seq<Effect>)
    ensures effects == [] <==> !DeleteSucceeded(response)
    ensures DeleteSucceeded(response) ==>
              SuccessToast(DeletedText) in effects && Invalidate(MenusKey) in effects && CloseModal in effects
    // the view stays where it is and shows no error
    ensures forall e :: e in effects ==> !e.ErrorToast? && !e.NavigateTo?
  {
    if DeleteSucceeded(response) then [SuccessToast(DeletedText), Invalidate(MenusKey), CloseModal] else []
  }

  /** However a delete settles: the menus are refreshed exactly on status 200, and an error toast shows exactly on failure. */
  function OnDeleteSettled(settlement: DeleteSettlement): (effects: seq<Effect>)
    ensures Invalidate(MenusKey) in effects <==> settlement.Deleted? && DeleteSucceeded(settlement.response)
    ensures ErrorToast(DeleteFailedText) in effects <==> settlement.DeleteRejected?
    // a failed delete shows that toast and does nothing else
    ensures settlement.DeleteRejected? ==> forall e :: e in effects ==> e == ErrorToast(DeleteFailedText)
  {
    match settlement
    case Deleted(response) => OnDeleteSuccess(response)
    case DeleteRejected => DeleteFailed(DeleteFailedText)
  }

  /**
   * Deleting or editing an item invalidates the key its menu query is
   * listed under; creating one invalidates "menu", which is not that key.
   */
  lemma MenuInvalidationKeys(restaurantId: string, save: SaveResponse, deletion: DeleteResponse)
    requires SaveSucceeded(save) && DeleteSucceeded(deletion)
    ensures var key := MenusQuery(restaurantId).key[0];
            && Invalidate(key) in OnDeleteSuccess(deletion)
            && Invalidate(key) in MenuForm.EditOnSuccess(save)
            && Invalidate(key) !in MenuForm.CreateOnSuccess(save)
  {
  }
}

=== FILE: restaurant_card.dfy ===
/**
 * The restaurant detail page: it looks up the route's id in the shared
 * list, renders the details, and deletes the restaurant on request.
 */
module RestaurantCard {
  import opened Wrappers
  import opened Entities
  import opened Effects
  import Api
  import Routes
  import RestaurantContext
  import RestaurantForm

  /** The position of the element `restaurants.find((r) => r._id === id)` returns: the first with that id, if any. */
  function IndexOfId(restaurants: seq<Restaurant>, id: string): (k: Option<nat>)
    ensures k.Some? ==> k.value < |restaurants| && restaurants[k.value].id == id
    ensures k.Some? ==> forall j :: 0 <= j < k.value ==> restaurants[j].id != id
    ensures k.None? <==> forall j :: 0 <= j < |restaurants| ==> restaurants[j].id != id
    decreases |restaurants|
  {
    if |restaurants| == 0 then None
    else if restaurants[0].id == id then Some(0)
    else match IndexOfId(restaurants[1..], id)
      case None => None
      case Some(k) => Some(k + 1)
  }

  /** `restaurants.find((r) => r._id === id)`: the first restaurant with that id. */
  function Find(restaurants: seq<Restaurant>, id: string): (r: Option<Restaurant>)
    ensures r.None? <==> forall j :: 0 <= j < |restaurants| ==> restaurants[j].id != id
    ensures r.Some? ==> r.value.id == id && r.value in restaurants
    // the first match: every restaurant before it has another id
    ensures r.Some? ==> exists k :: 0 <= k < |restaurants| && restaurants[k] == r.value
                                    && forall j :: 0 <= j < k ==> restaurants[j].id != id
  {
    match IndexOfId(restaurants, id)
    case Some(k) => Some(restaurants[k])
    case None => None
  }

  /** The address line: address, then city, state and zip code separated by commas. */
  function AddressLine(r: Restaurant): string {
    r.location.address + " " + r.location.city + ", " + r.location.state + ", " + r.location.zipCode
  }

  /** The operating-hours line: opening and closing time separated by a dash. */
  function HoursLine(r: Restaurant): string {
    r.operatingHours.openTime + " - " + r.operatingHours.closeTime
  }

  datatype DetailView =
    | Spinner
    | LoadError
    | NotFound
    | Details(restaurant: Restaurant, addressLine: string, hoursLine: string)

  /** What the page renders for route id `id`: loading first, then the error, then not-found, then the details. */
  function Render(ctx: RestaurantContext.ContextValue, id: string): (view: DetailView)
    ensures view.Spinner? <==> ctx.isLoading
    ensures view.LoadError? <==> !ctx.isLoading && ctx.isError
    ensures view.NotFound? <==> !ctx.isLoading && !ctx.isError
                                && forall j :: 0 <= j < |ctx.restaurantsData| ==> ctx.restaurantsData[j].id != id
    ensures view.Details? ==> view.restaurant.id == id && view.restaurant in ctx.restaurantsData
    ensures view.Details? ==> exists k :: 0 <= k < |ctx.restaurantsData| && ctx.restaurantsData[k] == view.restaurant
                                         && forall j :: 0 <= j < k ==> ctx.restaurantsData[j].id != id
    ensures view.Details? ==> view.addressLine == AddressLine(view.restaurant) && view.hoursLine == HoursLine(view.restaurant)
  {
    if ctx.isLoading then Spinner
    else if ctx.isError then LoadError
    else match Find(ctx.restaurantsData, id)
      case None => NotFound
      case Some(r) => Details(r, AddressLine(r), HoursLine(r))
  }

  /** A saved restaurant's page shows the opening and closing times that were submitted. */
  lemma HoursLineShowsSubmittedTimes(id: string, v: RestaurantForm.Values)
    ensures HoursLine(StoredRestaurant(id, RestaurantForm.Payload(v))) == v.openFrom + " - " + v.openTo
    ensures AddressLine(StoredRestaurant(id, RestaurantForm.Payload(v))) == v.address + " " + v.city + ", " + v.state + ", " + v.zip
  {
  }

  /**
   * Confirming the delete modal. The modal exists only on the details view,
   * and the request names the restaurant shown, whose id is the route's id.
   */
  function ConfirmDelete(ctx: RestaurantContext.ContextValue, id: string): (request: Option<Api.Request>)
    ensures request.Some? <==> Render(ctx, id).Details?
    ensures request.Some? ==> request.value.verb == Api.Delete && request.value.path == "/restaurant/" + id
  {
    match Render(ctx, id)
    case Details(r, _, _) => Some(Api.Describe(Api.DeleteRestaurant(r.id)))
    case _ => None
  }

  const DeletedText: string := "Restaurant Deleted!"
  const DeleteFailedText: string := "Error while delete restaurant"

  /** The delete mutation's `onSuccess`: with status 200 the modal closes, a toast shows, the app goes home and the list is refreshed; otherwise nothing happens. */
  function OnDeleteSuccess(response: DeleteResponse): (effects: seq<Effect>)
    ensures effects == [] <==> !DeleteSucceeded(response)
    ensures DeleteSucceeded(response) ==>
              CloseModal in effects && SuccessToast(DeletedText) in effects
              && NavigateTo(Routes.Home) in effects && Invalidate(RestaurantsKey) in effects
    // no error toast, and the only navigation is home
    ensures forall e :: e in effects ==> !e.ErrorToast? && (e.NavigateTo? ==> e.path == Routes.Home)
  {
    if DeleteSucceeded(response) then
      [CloseModal, SuccessToast(DeletedText), NavigateTo(Routes.Home), Invalidate(RestaurantsKey)]
    else []
  }

  /** However a delete settles: the app leaves the page exactly on status 200, and an error toast shows exactly on failure. */
  function OnDeleteSettled(settlement: DeleteSettlement): (effects: seq<Effect>)
    ensures NavigateTo(Routes.Home) in effects <==> settlement.Deleted? && DeleteSucceeded(settlement.response)
    ensures Invalidate(RestaurantsKey) in effects <==> settlement.Deleted? && DeleteSucceeded(settlement.response)
    ensures ErrorToast(DeleteFailedText) in effects <==> settlement.DeleteRejected?
    // a failed delete shows that toast and does nothing else
    ensures settlement.DeleteRejected? ==> forall e :: e in effects ==> e == ErrorToast(DeleteFailedText)
  {
    match settlement
    case Deleted(response) => OnDeleteSuccess(response)
    case DeleteRejected => DeleteFailed(DeleteFailedText)
  }

  /** Every successful restaurant mutation invalidates the key under which the shared list is queried. */
  lemma MutationsRefreshTheList(save: SaveResponse, deletion: DeleteResponse)
    requires SaveSucceeded(save) && DeleteSucceeded(deletion)
    ensures var key := RestaurantContext.RestaurantsQuery().key[0];
            && Invalidate(key) in RestaurantForm.CreateOnSuccess(save)
            && Invalidate(key) in RestaurantForm.EditOnSuccess(save)
            && Invalidate(key) in OnDeleteSuccess(deletion)
  {
  }
}

=== FILE: restaurant_context.dfy ===
/**
 * The application-wide restaurant list: the provider runs the "restaurants"
 * query and copies the fetched list into its own state, keeping the last
 * list it received whenever a query result carries none.
 */
module RestaurantContext {
  import opened Wrappers
  import opened Entities
  import opened Effects
  import Api

  /** The body of the listing response. */
  datatype ListBody = ListBody(status: int, data: Option<seq<Restaurant>>)

  /** The listing response (the query's `data`): its body, if any. */
  datatype ListResponse = ListResponse(body: Option<ListBody>)

  /** What consumers read. */
  datatype ContextValue = ContextValue(restaurantsData: seq<Restaurant>, isLoading: bool, isError: bool)

  /** The value seen outside any provider: no restaurants, not loading, no error (the source's `""` is falsy). */
  const Default: ContextValue := ContextValue([], false, false)

  /** The provider's list before any data arrives. */
  const InitialList: seq<Restaurant> := []

  /** The query the provider registers. */
  function RestaurantsQuery(): (q: QuerySpec)
    ensures q.key == [RestaurantsKey] && !q.refetchOnWindowFocus
    ensures q.fetch.verb == Api.Get && q.fetch.path == Api.RestaurantsPath
  {
    QuerySpec([RestaurantsKey], Api.Describe(Api.GetAll), false)
  }

  /** `restaurants?.data?.data`: the list a query result carries, when the result, its body and the list are all present. */
  function Fetched(restaurants: Option<ListResponse>): Option<seq<Restaurant>> {
    if restaurants.Some? && restaurants.value.body.Some? && restaurants.value.body.value.data.Some?
    then Some(restaurants.value.body.value.data.value)
    else None
  }

  /** The provider's effect on a new query result: replace the list when one arrived, else keep the previous list. */
  function OnData(previous: seq<Restaurant>, restaurants: Option<ListResponse>): (next: seq<Restaurant>)
    ensures restaurants.None? ==> next == previous
    ensures restaurants.Some? && restaurants.value.body.None? ==> next == previous
    ensures restaurants.Some? && restaurants.value.body.Some? ==>
              next == restaurants.value.body.value.data.GetOr(previous)
  {
    match Fetched(restaurants)
    case Some(list) => list
    case None => previous
  }

  /** The provider's list after a series of query results, applied in order. */
  function Replay(previous: seq<Restaurant>, results: seq<Option<ListResponse>>): seq<Restaurant>
    decreases |results|
  {
    if |results| == 0 then previous else Replay(OnData(previous, results[0]), results[1..])
  }

  /** The list carried by the latest result that carried one. */
  function LastFetched(results: seq<Option<ListResponse>>): Option<seq<Restaurant>>
    decreases |results|
  {
    if |results| == 0 then None
    else if Fetched(results[|results| - 1]).Some? then Fetched(results[|results| - 1])
    else LastFetched(results[..|results| - 1])
  }

  lemma {:induction false} ReplayAppend(previous: seq<Restaurant>, results: seq<Option<ListResponse>>, last: Option<ListResponse>)
    ensures Replay(previous, results + [last]) == OnData(Replay(previous, results), last)
    decreases |results|
  {
    if |results| > 0 {
      assert (results + [last])[1..] == results[1..] + [last];
      ReplayAppend(OnData(previous, results[0]), results[1..], last);
    }
  }

  /** The provider always shows the latest list that arrived, or its starting list if none did. */
  lemma {:induction false} ReplayKeepsLastFetched(previous: seq<Restaurant>, results: seq<Option<ListResponse>>)
    ensures Replay(previous, results) == LastFetched(results).GetOr(previous)
    decreases |results|
  {
    if |results| > 0 {
      var init := results[..|results| - 1];
      var last := results[|results| - 1];
      assert results == init + [last];
      ReplayAppend(previous, init, last);
      ReplayKeepsLastFetched(previous, init);
    }
  }

  /** The query's status flags as the provider receives them. */
  datatype QueryState = QueryState(data: Option<ListResponse>, isLoading: bool, isError: bool)

  /** The provided value: the provider's list, with the query's flags passed through unchanged. */
  function Provide(list: seq<Restaurant>, query: QueryState): (c: ContextValue)
    ensures c.restaurantsData == list
    ensures c.isLoading == query.isLoading && c.isError == query.isError
  {
    ContextValue(list, query.isLoading, query.isError)
  }
}

=== FILE: restaurant_form.dfy ===
/**
 * The add/edit restaurant form: the declarative field schema, the
 * hand-written opening-hours check, the category checkboxes, the edit-mode
 * prefill, the request body it assembles, the create-versus-update
 * dispatch, and the callbacks that run when the request settles.
 */
module RestaurantForm {
  import opened Wrappers
  import opened Text
  import opened FieldRules
  import opened Entities
  import opened Effects
  import Api
  import Routes

  datatype Field =
    | RestaurantName | Description | Email | Contact | City | Address | State | Zip
    | Categories | OpenFrom | OpenTo | RestroImage

  const AllFields: set<Field> :=
    {RestaurantName, Description, Email, Field.Contact, City, Address, State, Zip,
     Categories, OpenFrom, OpenTo, RestroImage}

  /**
   * The form's values. `restroImageBase64` is filled in asynchronously once
   * the chosen file has been read; it is absent until then.
   */
  datatype Values = Values(
    restaurantName: string,
    description: string,
    email: string,
    contact: string,
    city: string,
    address: string,
    state: string,
    zip: string,
    categories: seq<string>,
    openFrom: string,
    openTo: string,
    restroImage: Option<File>,
    restroImageBase64: Option<string>)

  // ---------------------------------------------------------------------------
  // Field schema

  const NameRequired: string := "Restaurant name is required"
  const DescriptionRequired: string := "Description is required"
  const EmailInvalid: string := "Invalid email"
  const EmailRequired: string := "Email is required"
  const ContactNotNumber: string := "Contact must be a number"
  const ContactRequired: string := "Contact is required"
  const CityRequired: string := "City is required"
  const AddressRequired: string := "Address is required"
  const StateRequired: string := "State is required"
  const ZipRequired: string := "Zip code is required"
  const CategoriesMin: string := "Select at least one category"
  const OpeningRequired: string := "Please select opening time"
  const ClosingRequired: string := "Please select closing time"
  const ImageRequired: string := "Restaurant image is required"

  /**
   * The rule attached to one field. `isEmail` stands for yup's e-mail
   * format test, which the model leaves abstract; like yup, it is not
   * consulted on an empty value.
   */
  function FieldError(v: Values, isEmail: string -> bool, f: Field): Option<string> {
    match f
    case RestaurantName => Required(v.restaurantName, NameRequired)
    case Description => Required(v.description, DescriptionRequired)
    case Email =>
      if v.email == "" then Some(EmailRequired)
      else if !isEmail(v.email) then Some(EmailInvalid)
      else None
    case Contact => Digits(v.contact, ContactRequired, ContactNotNumber)
    case City => Required(v.city, CityRequired)
    case Address => Required(v.address, AddressRequired)
    case State => Required(v.state, StateRequired)
    case Zip => Required(v.zip, ZipRequired)
    case Categories => if |v.categories| < 1 then Some(CategoriesMin) else None
    case OpenFrom => Required(v.openFrom, OpeningRequired)
    case OpenTo => Required(v.openTo, ClosingRequired)
    case RestroImage => Image(v.restroImage, ImageRequired)
  }

  /** The errors the field schema reports: one message per failing field. */
  function SchemaErrors(v: Values, isEmail: string -> bool): (errors: map<Field, string>)
    ensures RestaurantName in errors <==> v.restaurantName == ""
    ensures Description in errors <==> v.description == ""
    ensures City in errors <==> v.city == ""
    ensures Address in errors <==> v.address == ""
    ensures State in errors <==> v.state == ""
    ensures Zip in errors <==> v.zip == ""
    ensures OpenFrom in errors <==> v.openFrom == ""
    ensures OpenTo in errors <==> v.openTo == ""
    ensures Email in errors <==> v.email == "" || !isEmail(v.email)
    ensures Field.Contact in errors <==> !DigitsOnly(v.contact)
    ensures Categories in errors <==> |v.categories| == 0
    ensures RestroImage in errors <==> !(v.restroImage.Some? && ImageAcceptable(v.restroImage.value))
    // each required field reports its own message
    ensures v.restaurantName == "" ==> errors[RestaurantName] == NameRequired
    ensures v.openFrom == "" ==> errors[OpenFrom] == OpeningRequired
    ensures v.openTo == "" ==> errors[OpenTo] == ClosingRequired
    ensures v.description == "" ==> errors[Description] == DescriptionRequired
    ensures v.email == "" ==> errors[Email] == EmailRequired
    ensures v.contact == "" ==> errors[Field.Contact] == ContactRequired
    ensures v.city == "" ==> errors[City] == CityRequired
    ensures v.address == "" ==> errors[Address] == AddressRequired
    ensures v.state == "" ==> errors[State] == StateRequired
    ensures v.zip == "" ==> errors[Zip] == ZipRequired
    ensures |v.categories| == 0 ==> errors[Categories] == CategoriesMin
    ensures v.restroImage.None? ==> errors[RestroImage] == ImageRequired
  {
    map f | f in AllFields && FieldError(v, isEmail, f).Some? :: FieldError(v, isEmail, f).value
  }

  // ---------------------------------------------------------------------------
  // Opening-hours check

  const OpenFromMissing: string := "Open From time is required"
  const OpenToMissing: string := "Open To time is required"
  const OpenToNotLater: string := "Open To time should be greater than Open From time"
  const OpenTimesSame: string := "Open From and Open To time cannot be the same"

  /**
   * The form's `validate` hook. `to24` is the 12-hour to 24-hour conversion,
   * which the model leaves uninterpreted; its results are compared as
   * JavaScript compares strings. The assignments happen in source order, so
   * a later message for `openTo` replaces an earlier one.
   */
  function ValidateHours(v: Values, to24: string -> string): (errors: map<Field, string>)
    ensures errors.Keys <= {OpenFrom, OpenTo}
    ensures OpenFrom in errors <==> v.openFrom == ""
    ensures OpenFrom in errors ==> errors[OpenFrom] == OpenFromMissing
    ensures v.openTo == "" ==> OpenTo in errors && errors[OpenTo] == OpenToMissing
    // with both times chosen, exactly one of three outcomes applies
    ensures v.openFrom != "" && v.openTo != "" ==>
              (to24(v.openFrom) == to24(v.openTo) <==> OpenTo in errors && errors[OpenTo] == OpenTimesSame)
    ensures v.openFrom != "" && v.openTo != "" ==>
              (LexLess(to24(v.openTo), to24(v.openFrom)) <==> OpenTo in errors && errors[OpenTo] == OpenToNotLater)
    ensures v.openFrom != "" && v.openTo != "" ==>
              (LexLess(to24(v.openFrom), to24(v.openTo)) <==> OpenTo !in errors)
    // with one time missing, the comparison adds nothing
    ensures v.openFrom == "" && v.openTo != "" ==> OpenTo !in errors
  {
    var from24 := to24(v.openFrom);
    var till24 := to24(v.openTo);
    LexTrichotomy(from24, till24);
    var e0: map<Field, string> := map[];
    var e1 := if v.openFrom == "" then e0[OpenFrom := OpenFromMissing] else e0;
    var e2 := if v.openTo == "" then e1[OpenTo := OpenToMissing] else e1;
    var both := v.openFrom != "" && v.openTo != "";
    var e3 := if both && !LexLess(from24, till24) then e2[OpenTo := OpenToNotLater] else e2;
    var e4 := if both && from24 == till24 then e3[OpenTo := OpenTimesSame] else e3;
    e4
  }

  // ---------------------------------------------------------------------------
  // Category checkboxes

  /** `tags.filter((item) => item !== tag)`. */
  function Without(tags: seq<string>, tag: string): (r: seq<string>)
    ensures tag !in r
    ensures forall x :: x != tag ==> (x in r <==> x in tags)
    ensures |r| <= |tags|
    // every other tag keeps its multiplicity
    ensures multiset(r) == multiset(tags)[tag := 0]
    decreases |tags|
  {
    if |tags| == 0 then []
    else
      assert tags == [tags[0]] + tags[1..];
      (if tags[0] == tag then [] else [tags[0]]) + Without(tags[1..], tag)
  }

  /** The filter works element by element: filtering a concatenation filters each part, keeping their order. */
  lemma {:induction false} WithoutConcat(a: seq<string>, b: seq<string>, tag: string)
    ensures Without(a + b, tag) == Without(a, tag) + Without(b, tag)
    decreases |a|
  {
    if |a| == 0 {
      assert a + b == b;
    } else {
      assert (a + b)[1..] == a[1..] + b;
      WithoutConcat(a[1..], b, tag);
    }
  }

  lemma {:induction false} WithoutAbsent(tags: seq<string>, tag: string)
    requires tag !in tags
    ensures Without(tags, tag) == tags
    decreases |tags|
  {
    if |tags| > 0 {
      assert tag !in tags[1..];
      WithoutAbsent(tags[1..], tag);
    }
  }

  lemma {:induction false} WithoutAppended(tags: seq<string>, tag: string)
    ensures Without(tags + [tag], tag) == Without(tags, tag)
    decreases |tags|
  {
    if |tags| == 0 {
      assert Without([tag], tag) == [] + Without([], tag);
    } else {
      assert (tags + [tag])[1..] == tags[1..] + [tag];
      WithoutAppended(tags[1..], tag);
    }
  }

  /** Whether the checkbox for `tag` is shown checked: `values.categories.includes(tag)`. */
  predicate Checked(v: Values, tag: string) {
    tag in v.categories
  }

  /**
   * A checkbox's change handler: a checked tag is removed (every occurrence),
   * an unchecked one is appended at the end.
   */
  function Toggle(tags: seq<string>, tag: string): (r: seq<string>)
    ensures tag in r <==> tag !in tags
    ensures tag in tags ==> r == Without(tags, tag)
    ensures tag !in tags ==> |r| == |tags| + 1 && r[..|tags|] == tags && r[|tags|] == tag
    // the other tags, with their multiplicities and relative order, are untouched
    ensures Without(r, tag) == Without(tags, tag)
  {
    if tag in tags then
      WithoutAbsent(Without(tags, tag), tag);
      Without(tags, tag)
    else
      WithoutAppended(tags, tag);
      tags + [tag]
  }

  /** Unchecking a checkbox right after checking it restores the category list. */
  lemma ToggleTwiceUnchecked(tags: seq<string>, tag: string)
    requires tag !in tags
    ensures Toggle(Toggle(tags, tag), tag) == tags
  {
    var once := Toggle(tags, tag);
    assert once == tags + [tag];
    WithoutAppended(tags, tag);
    WithoutAbsent(tags, tag);
  }

  /** Checking a checkbox right after unchecking it leaves that tag once, at the end of the list. */
  lemma ToggleTwiceChecked(tags: seq<string>, tag: string)
    requires tag in tags
    ensures Toggle(Toggle(tags, tag), tag) == Without(tags, tag) + [tag]
  {
  }

  /** Clicking the checkbox for `tag`: the checkbox flips and no other value changes. */
  function OnCategoryChange(v: Values, tag: string): (r: Values)
    ensures Checked(r, tag) <==> !Checked(v, tag)
    ensures forall t :: t != tag ==> (Checked(r, t) <==> Checked(v, t))
    ensures r.(categories := v.categories) == v
  {
    v.(categories := Toggle(v.categories, tag))
  }

  // ---------------------------------------------------------------------------
  // Prefill, request body, dispatch

  const Blank: Values := Values("", "", "", "", "", "", "", "", [], "", "", None, None)

  /**
   * The initial values: the fields of the restaurant being edited, or blanks
   * when adding. (`x || ""` on a string is `x`.) The image always starts
   * unset.
   */
  function Prefill(data: Option<Restaurant>): (v: Values)
    ensures v.restroImage.None? && v.restroImageBase64.None?
    ensures data.None? ==> v == Blank
    ensures data.Some? ==> v.categories == data.value.categories
  {
    match data
    case None => Blank
    case Some(r) =>
      Values(r.name, r.description, r.contact.email, r.contact.phone, r.location.city,
             r.location.address, r.location.state, r.location.zipCode, r.categories,
             r.operatingHours.openTime, r.operatingHours.closeTime, None, None)
  }

  /** A freshly opened form, whether adding or editing, cannot be submitted until an image is chosen. */
  lemma PrefillNeedsImage(data: Option<Restaurant>, isEmail: string -> bool)
    ensures SchemaErrors(Prefill(data), isEmail)[RestroImage] == ImageRequired
  {
  }

  /** `reqBody`: the flat values regrouped into the nested shape of a restaurant; no value is converted. */
  function Payload(v: Values): (p: RestaurantPayload)
    ensures p.name == v.restaurantName && p.description == v.description
    ensures p.location.address == v.address && p.location.city == v.city
    ensures p.location.state == v.state && p.location.zipCode == v.zip
    ensures p.contact.email == v.email && p.contact.phone == v.contact
    ensures p.image == v.restroImageBase64 && p.categories == v.categories
    // the form's opening time is the opening time sent, its closing time the closing time
    ensures p.operatingHours.openTime == v.openFrom && p.operatingHours.closeTime == v.openTo
  {
    RestaurantPayload(
      v.restaurantName,
      v.description,
      Location(v.address, v.city, v.state, v.zip),
      Entities.Contact(v.email, v.contact),
      v.restroImageBase64,
      v.categories,
      OperatingHours(v.openFrom, v.openTo))
  }

  /** Editing a saved restaurant shows exactly the values it was saved from, except the image. */
  lemma PrefillOfSaved(id: string, v: Values)
    ensures Prefill(Some(StoredRestaurant(id, Payload(v)))) == v.(restroImage := None, restroImageBase64 := None)
  {
  }

  /** Re-submitting an edit form unchanged, with a new image, sends the restaurant's own fields. */
  lemma PayloadOfPrefill(r: Restaurant, image: File, base64: string)
    ensures Payload(Prefill(Some(r)).(restroImage := Some(image), restroImageBase64 := Some(base64)))
            == RestaurantFields(r).(image := Some(base64))
  {
  }

  /**
   * Pressing submit. Formik calls the handler only when neither the schema
   * nor the `validate` hook reports an error. Editing sends an update of the
   * restaurant being edited and resets the form; adding sends a create and
   * does not.
   */
  function Submit(data: Option<Restaurant>, v: Values, isEmail: string -> bool, to24: string -> string): (s: Submission)
    ensures s.Sent? <==> SchemaErrors(v, isEmail) == map[] && ValidateHours(v, to24) == map[]
    ensures s.Sent? ==> s.request.body == Api.RestaurantBody(Payload(v))
    ensures s.Sent? ==> (s.request.verb == Api.Put <==> data.Some?) && (s.request.verb == Api.Post <==> data.None?)
    ensures s.Sent? && data.Some? ==> s.request.path == "/restaurant/" + data.value.id
    ensures s.Sent? && data.None? ==> s.request.path == "/restaurant"
    ensures s.Sent? ==> (s.resetsForm <==> data.Some?)
    // what a sent restaurant is guaranteed to satisfy
    ensures s.Sent? ==> LexLess(to24(v.openFrom), to24(v.openTo))
    ensures s.Sent? ==> DigitsOnly(v.contact) && |v.categories| > 0 && v.zip != ""
    ensures s.Sent? ==> v.restroImage.Some? && ImageAcceptable(v.restroImage.value)
    // the same guarantees, read off the body that goes to the server
    ensures s.Sent? ==> s.request.body.RestaurantBody?
    ensures s.Sent? && s.request.body.RestaurantBody? ==>
              var hours := s.request.body.restaurant.operatingHours;
              LexLess(to24(hours.openTime), to24(hours.closeTime))
              && DigitsOnly(s.request.body.restaurant.contact.phone)
              && |s.request.body.restaurant.categories| > 0
  {
    if SchemaErrors(v, isEmail) != map[] || ValidateHours(v, to24) != map[] then
      Blocked
    else
      assert OpenFrom !in SchemaErrors(v, isEmail) && OpenTo !in SchemaErrors(v, isEmail);
      match data
      case Some(r) => Sent(Api.Describe(Api.UpdateRestaurant(r.id, Payload(v))), true)
      case None => Sent(Api.Describe(Api.AddRestaurant(Payload(v))), false)
  }

  // ---------------------------------------------------------------------------
  // Settling the request

  const AddedText: string := "Successfully added new restaurant!"
  const UpdatedText: string := "Successfully updated restaurant!"
  const CreateFailedText: string := "Error while creating new restaurant"

  /** The create mutation's `onSuccess`: loading always ends; toast and refresh only past the success gate. */
  function CreateOnSuccess(response: SaveResponse): (effects: seq<Effect>)
    ensures ClearLoading in effects
    ensures SuccessToast(AddedText) in effects <==> SaveSucceeded(response)
    ensures Invalidate(RestaurantsKey) in effects <==> SaveSucceeded(response)
    ensures !SaveSucceeded(response) ==> effects == [ClearLoading]
    ensures forall e :: e in effects ==> !e.CloseModal? && !e.NavigateTo? && !e.ErrorToast?
  {
    [ClearLoading] + if SaveSucceeded(response) then [SuccessToast(AddedText), Invalidate(RestaurantsKey)] else []
  }

  /**
   * The update mutation's `onSuccess`: loading always ends; past the success
   * gate it also closes the edit modal and opens the saved restaurant's page.
   */
  function EditOnSuccess(response: SaveResponse): (effects: seq<Effect>)
    ensures ClearLoading in effects
    ensures SuccessToast(UpdatedText) in effects <==> SaveSucceeded(response)
    ensures CloseModal in effects <==> SaveSucceeded(response)
    ensures Invalidate(RestaurantsKey) in effects <==> SaveSucceeded(response)
    ensures SaveSucceeded(response) ==> NavigateTo(Routes.RestaurantPage(response.savedId.value)) in effects
    ensures !SaveSucceeded(response) ==> effects == [ClearLoading]
    // no error toast, and the only navigation is to the saved restaurant's page
    ensures forall e :: e in effects ==>
              !e.ErrorToast? && (e.NavigateTo? ==> SaveSucceeded(response) && e.path == Routes.RestaurantPage(response.savedId.value))
  {
    [ClearLoading] +
      if SaveSucceeded(response) then
        [SuccessToast(UpdatedText), Invalidate(RestaurantsKey), CloseModal,
         NavigateTo(Routes.RestaurantPage(response.savedId.value))]
      else []
  }

  /** Whichever way a request settles, the form leaves its loading state. */
  function OnSettled(editing: bool, settlement: Settlement): (effects: seq<Effect>)
    ensures !LoadingAfter(true, effects)
    ensures Invalidate(RestaurantsKey) in effects <==> settlement.Resolved? && SaveSucceeded(settlement.response)
  {
    match settlement
    case Resolved(response) => if editing then EditOnSuccess(response) else CreateOnSuccess(response)
    case Rejected(message) => SaveFailed(CreateFailedText, editing, message)
  }
}

=== FILE: restaurant_list.dfy ===
/** The home-page list of restaurants. */
module RestaurantList {
  import opened Wrappers
  import opened Entities
  import Routes
  import RestaurantContext

  /** One card: the restaurant it shows and where clicking it leads. */
  datatype Card = Card(restaurant: Restaurant, onClick: string)

  datatype ListView = Spinner | LoadError | NoRestaurants | Cards(cards: seq<Card>)

  /**
   * What the list renders: loading first, then the error, then the empty
   * message, then one card per restaurant in order. (The source also guards
   * against an absent list; the context always provides one.)
   */
  function Render(ctx: RestaurantContext.ContextValue): (view: ListView)
    ensures view.Spinner? <==> ctx.isLoading
    ensures view.LoadError? <==> !ctx.isLoading && ctx.isError
    ensures view.NoRestaurants? <==> !ctx.isLoading && !ctx.isError && |ctx.restaurantsData| == 0
    ensures view.Cards? ==> |view.cards| == |ctx.restaurantsData| > 0
    ensures view.Cards? ==> forall i :: 0 <= i < |view.cards| ==>
              view.cards[i].restaurant == ctx.restaurantsData[i]
              && view.cards[i].onClick == "/restaurant/" + ctx.restaurantsData[i].id
  {
    var list := ctx.restaurantsData;
    if ctx.isLoading then Spinner
    else if ctx.isError then LoadError
    else if |list| == 0 then NoRestaurants
    else Cards(seq(|list|, i requires 0 <= i < |list| => Card(list[i], Routes.RestaurantPage(list[i].id))))
  }

  /** Outside a provider the list shows its empty message. */
  lemma DefaultShowsEmpty()
    ensures Render(RestaurantContext.Default) == NoRestaurants
  {
  }

  /**
   * Once the query has settled without error, the home page shows the latest
   * list any query result carried, in order, or the empty message if none
   * carried one (or the latest was empty).
   */
  lemma {:induction false} ShowsLastFetchedList(results: seq<Option<RestaurantContext.ListResponse>>, query: RestaurantContext.QueryState)
    requires !query.isLoading && !query.isError
    ensures var shown := RestaurantContext.LastFetched(results).GetOr([]);
            var view := Render(RestaurantContext.Provide(RestaurantContext.Replay(RestaurantContext.InitialList, results), query));
            && (view.NoRestaurants? <==> shown == [])
            && (view.Cards? <==> shown != [])
            && (view.Cards? ==> |view.cards| == |shown| && forall i :: 0 <= i < |view.cards| ==> view.cards[i].restaurant == shown[i])
  {
    RestaurantContext.ReplayKeepsLastFetched(RestaurantContext.InitialList, results);
  }
}

=== FILE: rules.dfy ===
/** The per-field rules both forms' schemas are built from. */
module FieldRules {
  import opened Wrappers
  import Text

  /** A selected file: its size in bytes and its MIME type. */
  datatype File = File(size: nat, mimeType: string)

  const MaxImageBytes: nat := 5000000
  const ImageTypes: seq<string> := ["image/jpg", "image/jpeg", "image/png"]

  const TooLargeMessage: string := "The file is too large"
  const FormatMessage: string := "Unsupported format"

  predicate ImageAcceptable(f: File) {
    f.size <= MaxImageBytes && f.mimeType in ImageTypes
  }

  /** `yup.string().required(message)`. */
  function Required(value: string, message: string): (e: Option<string>)
    ensures e.None? <==> value != ""
    ensures e.Some? ==> e.value == message
  {
    if value == "" then Some(message) else None
  }

  /**
   * `yup.string().matches(/^\d+$/, digitsMessage).required(requiredMessage)`;
   * an empty value reports the required message.
   */
  function Digits(value: string, requiredMessage: string, digitsMessage: string): (e: Option<string>)
    ensures e.None? <==> Text.DigitsOnly(value)
    ensures value == "" ==> e == Some(requiredMessage)
    ensures value != "" && e.Some? ==> e.value == digitsMessage
  {
    if value == "" then Some(requiredMessage)
    else if !Text.AllDigits(value) then Some(digitsMessage)
    else None
  }

  /**
   * `yup.mixed().required(requiredMessage)` followed by the `fileSize` test
   * (at most 5,000,000 bytes) and the `fileFormat` test (jpg, jpeg or png).
   */
  function Image(file: Option<File>, requiredMessage: string): (e: Option<string>)
    ensures e.None? <==> file.Some? && file.value.size <= 5000000
                         && file.value.mimeType in {"image/jpg", "image/jpeg", "image/png"}
    ensures file.None? ==> e == Some(requiredMessage)
    ensures file.Some? && file.value.size > MaxImageBytes ==> e == Some(TooLargeMessage)
  {
    match file
    case None => Some(requiredMessage)
    case Some(f) =>
      if f.size > MaxImageBytes then Some(TooLargeMessage)
      else if f.mimeType !in ImageTypes then Some(FormatMessage)
      else None
  }

  /** The size limit is inclusive, and only the three listed types pass. */
  lemma ImageBoundaries(message: string)
    ensures Image(Some(File(5000000, "image/png")), message).None?
    ensures Image(Some(File(5000001, "image/png")), message) == Some(TooLargeMessage)
    ensures Image(Some(File(4999999, "image/gif")), message) == Some(FormatMessage)
    ensures Image(Some(File(4999999, "image/jpg")), message).None?
  {
  }
}

=== FILE: text.dfy ===
/**
 * String helpers the forms rely on: the `/^\d+$/` test, decimal numbers
 * (`parseFloat` on digit strings and the number shown back in a field),
 * JavaScript's `String.prototype.split(",")` / `Array.prototype.join(",")`,
 * and JavaScript's ordering of strings (`<`, `>=`), which is lexicographic
 * by character.
 */
module Text {

  // ---------------------------------------------------------------------------
  // Digits

  predicate IsDigit(c: char) {
    '0' <= c <= '9'
  }

  /** Every character is a decimal digit (the empty string qualifies). */
  predicate AllDigits(s: string) {
    forall i :: 0 <= i < |s| ==> IsDigit(s[i])
  }

  /** The regular expression `/^\d+$/`: at least one character, all digits. */
  predicate DigitsOnly(s: string) {
    |s| > 0 && AllDigits(s)
  }

  /** A digit string without superfluous leading zeros ("0" itself is canonical). */
  predicate Canonical(s: string) {
    DigitsOnly(s) && (s[0] != '0' || |s| == 1)
  }

  function DigitValue(c: char): (d: nat)
    requires IsDigit(c)
    ensures d < 10
  {
    c as int - '0' as int
  }

  function DigitChar(d: nat): (c: char)
    requires d < 10
    ensures IsDigit(c) && DigitValue(c) == d
  {
    ('0' as int + d) as char
  }

  /** The number a digit string denotes: what `parseFloat` yields on such a string. */
  function ValueOf(s: string): nat
    requires AllDigits(s)
    decreases |s|
  {
    if |s| == 0 then 0 else 10 * ValueOf(s[..|s| - 1]) + DigitValue(s[|s| - 1])
  }

  /** The canonical decimal representation of `n`. */
  function Decimal(n: nat): (s: string)
    ensures Canonical(s)
    decreases n
  {
    if n < 10 then [DigitChar(n)] else Decimal(n / 10) + [DigitChar(n % 10)]
  }

  /** Reading back the decimal representation of a number gives the number. */
  lemma {:induction false} ValueOfDecimal(n: nat)
    ensures ValueOf(Decimal(n)) == n
    decreases n
  {
    if n >= 10 {
      var s := Decimal(n);
      assert s[..|s| - 1] == Decimal(n / 10);
      ValueOfDecimal(n / 10);
    }
  }

  /** A canonical digit string is the decimal representation of its value. */
  lemma {:induction false} DecimalOfValue(s: string)
    requires Canonical(s)
    ensures Decimal(ValueOf(s)) == s
    decreases |s|
  {
    if |s| == 1 {
      assert s == [DigitChar(DigitValue(s[0]))];
    } else {
      var p := s[..|s| - 1];
      assert p[0] == s[0];
      assert Canonical(p);
      PositiveValue(p);
      DecimalOfValue(p);
      var n := ValueOf(s);
      assert n / 10 == ValueOf(p) && n % 10 == DigitValue(s[|s| - 1]);
      assert s == p + [DigitChar(n % 10)];
    }
  }

  /** A digit string whose first digit is not zero denotes a positive number. */
  lemma {:induction false} PositiveValue(s: string)
    requires DigitsOnly(s) && s[0] != '0'
    ensures ValueOf(s) > 0
    decreases |s|
  {
    if |s| > 1 {
      var p := s[..|s| - 1];
      assert p[0] == s[0];
      PositiveValue(p);
    }
  }

  /** A leading zero does not change the value: `parseFloat("07") == parseFloat("7")`. */
  lemma {:induction false} LeadingZeroIgnored(s: string)
    requires AllDigits(s)
    ensures AllDigits("0" + s) && ValueOf("0" + s) == ValueOf(s)
    decreases |s|
  {
    var z := "0" + s;
    assert AllDigits(z) by {
      forall i | 0 <= i < |z|
        ensures IsDigit(z[i])
      {
        if i > 0 { assert z[i] == s[i - 1]; }
      }
    }
    if |s| > 0 {
      var p := s[..|s| - 1];
      assert z[..|z| - 1] == "0" + p;
      LeadingZeroIgnored(p);
    }
  }

  // ---------------------------------------------------------------------------
  // Splitting and joining on ","

  const Comma: char := ','

  /** `s.split(",")`: the pieces between commas, in order; never an empty list. */
  function Split(s: string): (r: seq<string>)
    ensures |r| >= 1
    ensures forall i :: 0 <= i < |r| ==> Comma !in r[i]
    decreases |s|
  {
    if |s| == 0 then [""]
    else if s[0] == Comma then [""] + Split(s[1..])
    else
      var rest := Split(s[1..]);
      [[s[0]] + rest[0]] + rest[1..]
  }

  /** `xs.join(",")`: the pieces with a comma between neighbours. */
  function Join(xs: seq<string>): string
    decreases |xs|
  {
    if |xs| == 0 then ""
    else if |xs| == 1 then xs[0]
    else xs[0] + [Comma] + Join(xs[1..])
  }

  predicate NoCommas(xs: seq<string>) {
    forall i :: 0 <= i < |xs| ==> Comma !in xs[i]
  }

  /** Joining the pieces of any string restores the string. */
  lemma {:induction false} JoinSplit(s: string)
    ensures Join(Split(s)) == s
    decreases |s|
  {
    if |s| > 0 {
      JoinSplit(s[1..]);
      var rest := Split(s[1..]);
      if s[0] == Comma {
        assert Split(s)[1..] == rest;
      } else {
        var r := Split(s);
        assert r[1..] == rest[1..];
        if |rest| == 1 {
          assert Join(r) == [s[0]] + rest[0];
        } else {
          assert Join(rest) == rest[0] + [Comma] + Join(rest[1..]);
          assert Join(r) == [s[0]] + rest[0] + [Comma] + Join(rest[1..]);
        }
        assert s == [s[0]] + s[1..];
      }
    }
  }

  /** A comma-free string is a single piece. */
  lemma {:induction false} SplitWord(w: string)
    requires Comma !in w
    ensures Split(w) == [w]
    decreases |w|
  {
    if |w| > 0 {
      assert Comma !in w[1..];
      SplitWord(w[1..]);
      assert w == [w[0]] + w[1..];
    }
  }

  /** A comma-free word followed by a comma and a tail splits into the word and the tail's pieces. */
  lemma {:induction false} SplitAfterWord(w: string, t: string)
    requires Comma !in w
    ensures Split(w + [Comma] + t) == [w] + Split(t)
    decreases |w|
  {
    var s := w + [Comma] + t;
    if |w| == 0 {
      assert s[1..] == t;
    } else {
      assert s[1..] == w[1..] + [Comma] + t;
      assert Comma !in w[1..];
      SplitAfterWord(w[1..], t);
      assert w == [w[0]] + w[1..];
    }
  }

  /** Splitting the join of a non-empty list of comma-free pieces gives the list back. */
  lemma {:induction false} SplitJoin(xs: seq<string>)
    requires |xs| > 0 && NoCommas(xs)
    ensures Split(Join(xs)) == xs
    decreases |xs|
  {
    if |xs| == 1 {
      SplitWord(xs[0]);
    } else {
      SplitAfterWord(xs[0], Join(xs[1..]));
      SplitJoin(xs[1..]);
      assert xs == [xs[0]] + xs[1..];
    }
  }

  // ---------------------------------------------------------------------------
  // JavaScript string order

  /** JavaScript's `a < b` on strings: the first differing character decides, and a proper prefix is smaller. */
  predicate LexLess(a: string, b: string)
    decreases |a|
  {
    if |b| == 0 then false
    else if |a| == 0 then true
    else if a[0] != b[0] then a[0] < b[0]
    else LexLess(a[1..], b[1..])
  }

  /** Exactly one of `a < b`, `a === b`, `a > b` holds. */
  lemma {:induction false} LexTrichotomy(a: string, b: string)
    ensures LexLess(a, b) || a == b || LexLess(b, a)
    ensures !(LexLess(a, b) && LexLess(b, a))
    ensures !(LexLess(a, b) && a == b)
    decreases |a|
  {
    if |a| > 0 && |b| > 0 && a[0] == b[0] {
      LexTrichotomy(a[1..], b[1..]);
      if a[1..] == b[1..] {
        assert a == [a[0]] + a[1..] && b == [b[0]] + b[1..];
      }
      if a == b {
        assert a[1..] == b[1..];
      }
    }
  }
}

=== FILE: wrappers.dfy ===
/** An optional value: JavaScript's `undefined`/`null` versus a present value. */
module Wrappers {

  datatype Option<+T> = None | Some(value: T) {

    /** The value when present, otherwise `default` (JavaScript's `x ?? default`). */
    function GetOr(default: T): T {
      match this
      case Some(v) => v
      case None => default
    }
  }
}
